=== FILE: README.md ===
# RAG pipeline core in Dafny

This is a Dafny model of the retrieval-augmented generation core of a small
Python chat assistant. The assistant answers questions with a DeepSeek chat
model and augments each question with passages retrieved from uploaded
documents. The model covers four pieces:

- **The in-memory knowledge base** (`MemoryKBHandler`, module `MemoryKB`). It keeps
  four parallel lists: documents, embeddings, metadata and ids. The operations are
  batch add with default metadata and generated ids, top-k retrieval by
  similarity, delete by id, clear, count and snapshot. A mutable handler becomes a
  pure function from the store before a call to the store after it, paired with
  whether the call raised (`Applied`). That makes "raises and leaves the store
  unchanged" and "raises after a partial update" expressible.
- **Top-k selection** (module `Ranking`), which models `np.argsort(-scores)[:top_k]`.
  It is a stable insertion sort of positions by descending score, and the
  slice follows Python's rules, including a negative `top_k`.
- **Context and message assembly** (`RAGService`, module `Rag`). This covers the
  ranked context block, the system prompt, the message list sent to the model,
  the `use_rag` switch, and the knowledge-base status report.
- **Document-processor dispatch** (`DocumentProcessor`, module `Documents`). This
  covers suffix-based loader choice, the text and metadata each loader builds,
  the blank-text guard in front of the splitter, and the supported-format list.
- **Client-side arithmetic** of the DeepSeek client (module `DeepSeek`). This
  covers credential resolution, the `len // 4` token estimate, the per-message
  overhead, and the filtering of streamed deltas.

Foreign collaborators are represented as function values:

- the embedding model: `Embedding.Embedder`, with separate passage and query
  paths and a failure predicate for each;
- cosine similarity: `Similarity`;
- Python's per-process `hash`: `HashFn`;
- the langchain text splitter: `Splitter`;
- file decoding: `FileView`;
- the `{:.2%}` percentage formatter: `PercentFormat`;
- the chat model's delta stream: `seq<Message> -> Stream`.

The files are `common.dfy` (errors, results, Python string helpers),
`embedding.dfy`, `ranking.dfy`, `memory_kb.dfy`, `rag_service.dfy`,
`document_processor.dfy` and `deepseek_client.dfy`.

Points where the code's behaviour is easy to misread, and what the model
follows:

- **Delete.** Deletion removes only the first passage carrying the id. Duplicate
  ids do arise: adding the same one-document batch twice without ids gives both
  passages `doc_0_<hash>`. So deleting twice is the same as deleting once only
  when the id occurs at most once; with two or more copies the second delete
  removes another passage (`DeleteIdempotentWhenUnique`, `DeleteTwiceOnDuplicate`,
  `RepeatedAddDuplicatesIds`).
- **Add.** The in-memory store checks neither the metadata length nor the ids
  length against the batch, so a successful add can leave the four lists
  misaligned (`AddAlignedIff`). Each stored vector is still the embedding of
  its own document whatever the lengths (`RunKeepsEmbedded`).
- **Misaligned stores.** Later calls on a misaligned store are modelled as the
  code behaves. `retrieve` raises `IndexError` when a selected position is past
  the end of a list. `delete_document` can raise after it has already popped
  from the earlier lists.
- **Vector dimension.** Nothing in the in-memory store compares the dimension
  of a new vector with the stored ones.
- **Ties.** numpy's default `argsort` is not stable, so the code leaves the order
  among equal scores open. The model uses index order, which is one of the
  orders numpy may produce. Every property stated about retrieval, except
  `TiesInIndexOrder`, holds for any tie order.

## Model

| member | source | states |
|---|---|---|
| Common.BlankIffStripEmpty | src/memory_kb_handler.py:87-88 | the guard `not s or not s.strip()` holds exactly when `s.strip()` is empty, i.e. every character is Python whitespace |
| Common.SplitJoin | src/document_processor.py:98 | `"\n".join(parts)` is undone by splitting on the newline when no part contains one: the parts come back exactly |
| Common.NatToStringInjective | src/memory_kb_handler.py:51 | distinct batch positions render to distinct decimal strings |
| Embedding.EmbedTexts | src/embedding_handler.py:46-57 | an empty batch yields an empty result without the model; otherwise one passage vector per text in order, or the backend's error |
| Embedding.EmbedQuery | src/embedding_handler.py:71-82 | a blank query yields the empty sentinel without the model; otherwise the query-path vector or the backend's error |
| Ranking.Rank | src/memory_kb_handler.py:118 | the argsort lists every stored position exactly once, by non-increasing score, ties in index order |
| Ranking.TopK | src/memory_kb_handler.py:118 | the selected positions are distinct, sorted by non-increasing score, and as many as Python's slice `[:top_k]` keeps |
| Ranking.TopKSize | src/memory_kb_handler.py:118 | with `top_k > 0` exactly `min(top_k, N)` positions are selected |
| Ranking.TopKIsBest | src/memory_kb_handler.py:114-118 | no position left out of the selection scores higher than a selected one |
| Ranking.InsertKeepsRanking | src/memory_kb_handler.py:118 | inserting a smaller position into a ranking keeps it sorted, ties in index order, and free of repeats |
| MemoryKB.DefaultIdInjective | src/memory_kb_handler.py:50-51 | a generated id `doc_{i}_{hash(doc)}` determines the batch position `i`, whatever the documents and their hashes |
| MemoryKB.DefaultIdsDistinct | src/memory_kb_handler.py:50-51 | ids generated for one batch are pairwise distinct |
| MemoryKB.AddDocuments | src/memory_kb_handler.py:44-70 | an empty batch raises ValueError; any raise leaves the store unchanged; success happens exactly when the batch is non-empty and embedding succeeds; then each list is the old list followed by the batch: the documents, their passage embeddings in order, the metadata (`{}` each when omitted) and the ids (generated when omitted) |
| MemoryKB.AddAlignedIff | src/memory_kb_handler.py:47-63 | on an aligned store a successful add keeps the four lists aligned if and only if the supplied metadata and ids match the batch in length |
| MemoryKB.AddGrowsCount | src/memory_kb_handler.py:60-63 | a successful add grows the document count by exactly the batch size |
| MemoryKB.AddKeepsEmbedded | src/memory_kb_handler.py:57-61 | after an add, raising or not and whatever the metadata and ids lengths, every stored vector is still the passage embedding of the document at its position |
| MemoryKB.Gather | src/memory_kb_handler.py:121-126 | each result row is read from the same stored position in all four lists, distance being one minus the similarity; IndexError exactly when a position is past the end of a list |
| MemoryKB.Retrieve | src/memory_kb_handler.py:87-133 | a blank query, and only a blank query, raises ValueError; an empty store gives four empty lists whatever the embedder would do; a failing query embedding propagates |
| MemoryKB.RetrieveRows | src/memory_kb_handler.py:114-126 | on an aligned non-empty store retrieval succeeds with `min(top_k, N)` rows for `top_k > 0`; rows come from distinct stored positions, aligned across ids, documents, metadatas and distances |
| MemoryKB.RetrieveOrdered | src/memory_kb_handler.py:118-125 | in every successful retrieval, aligned store or not, reported distances are non-decreasing down the result |
| MemoryKB.RetrieveIsBest | src/memory_kb_handler.py:114-125 | in every successful retrieval over a non-empty store, aligned or not, no stored vector left out of the result is closer to the query than a returned one |
| MemoryKB.RetrieveRanksTexts | src/memory_kb_handler.py:114-125 | when every stored vector embeds its document and the retrieval succeeds, whatever the lengths of the ids and metadata lists, each reported distance is that of the reported text itself, and no stored text left out is closer to the query than a returned one |
| MemoryKB.PicksAreBestTexts | src/memory_kb_handler.py:114-118 | when every stored vector embeds its document, no stored text outside the selected positions is more similar to the query than a selected one |
| MemoryKB.DeleteDocument | src/memory_kb_handler.py:145-158 | an absent id changes nothing; on an aligned store a present id removes its first position from all four lists, keeping the store aligned |
| MemoryKB.DeleteRemovesFirstMatch | src/memory_kb_handler.py:145-150 | on an aligned store, deleting a present id removes exactly one passage, the first with the id, keeping the order of the others |
| MemoryKB.DeletePopsId | src/memory_kb_handler.py:146-147 | on any store, aligned or not, the ids list loses exactly its first match |
| MemoryKB.DeleteIdempotentWhenUnique | src/memory_kb_handler.py:145-154 | on any store, aligned or not, deleting an id that occurs at most once a second time changes nothing |
| MemoryKB.DeleteTwiceOnDuplicate | src/memory_kb_handler.py:145-150 | on an aligned store holding an id at least twice, the id is still present after one delete and a second delete removes a second passage |
| MemoryKB.DeleteKeepsEmbedded | src/memory_kb_handler.py:145-150 | deleting keeps every stored vector the embedding of its own document, even when a misaligned store makes the call raise part-way |
| MemoryKB.RepeatedAddDuplicatesIds | src/memory_kb_handler.py:50-51 | adding the same one-document batch twice without ids stores the same generated id twice |
| MemoryKB.ClearCollection | src/memory_kb_handler.py:160-168 | clearing empties all four lists, so the count is 0 |
| MemoryKB.ClearIdempotent | src/memory_kb_handler.py:160-168 | clearing twice equals clearing once |
| MemoryKB.DocumentCount | src/memory_kb_handler.py:173-175 | the count is zero exactly when no document is stored, and on an aligned store it equals the length of every list; `AddGrowsCount` and `ClearCollection` relate it to add and clear |
| MemoryKB.AllDocuments | src/memory_kb_handler.py:177-183 | the snapshot's ids, documents and metadatas equal the store's current lists |
| MemoryKB.SnapshotAfterAdd | src/memory_kb_handler.py:60-63 | after a successful add the snapshot lists the earlier passages unchanged, then the batch |
| MemoryKB.RunKeepsAligned | src/memory_kb_handler.py:22-26 | any sequence of adds, deletes and clears, raising or not, keeps the four lists aligned provided every add is well sized |
| MemoryKB.RunKeepsEmbedded | src/memory_kb_handler.py:44-168 | through any sequence of adds, deletes and clears with one embedder, ill-sized adds included, every stored vector stays the embedding of its own document |
| Rag.Relevance | src/rag_service.py:108 | relevance is `max(0, 1 - distance)`: never negative, at least `1 - distance`, and equal to one of the two |
| Rag.Blocks | src/rag_service.py:104-109 | one block per zipped document and distance, block `j` labelled `first + j` and carrying document `j` |
| Rag.RetrieveContext | src/rag_service.py:88-117 | the context is empty when the store is empty, when retrieval raises, or when it finds nothing; when the store is non-empty and retrieval finds documents it is exactly the heading followed by their blocks |
| Rag.ContextBlankOnlyIfEmpty | src/rag_service.py:103-111 | a context is blank only when it is empty, so a non-empty context always reaches the system prompt |
| Rag.ContextListsBestPassages | src/rag_service.py:96-111 | on an aligned non-empty store whose vectors embed its documents, with `top_k > 0`, the context holds `min(top_k, N)` blocks labelled 1, 2, ..., block `j` carrying the `j`-th best stored text verbatim with that text's own distance, and no stored text left out is more similar to the query than one listed |
| Rag.SystemPrompt | src/rag_service.py:159-174 | a blank context gives exactly the base prompt; otherwise the prompt is base, blank line, context, blank line, closing instruction |
| Rag.SystemPromptRoundTrip | src/rag_service.py:167-174 | the base prompt is always a prefix and the context reads back verbatim from the prompt (a blank one as empty) |
| Rag.BuildEnhancedMessages | src/rag_service.py:137-147 | the list has `len(history) + 2` messages: the system message, the history unchanged and in order, then the user query |
| Rag.EnhancedMessagesTokens | src/rag_service.py:137-147 | the token estimate of the assembled list is the system prompt's, the history's and the query's estimates plus 8 |
| Rag.GenerateResponseWithRag | src/rag_service.py:56-72 | the context is retrieved only when `use_rag` is set; the messages are built from it and the yielded fragments are the filtered model stream for those messages |
| Rag.NoRagIgnoresStore | src/rag_service.py:58-60 | with `use_rag` off the turn does not depend on the store or the embedder, and the system message is the base prompt |
| Rag.InfoFromCount | src/rag_service.py:199-212 | `top_k` is echoed; status is ready when the count is positive and empty when it is 0; a raising count reports 0 with status error |
| Rag.KnowledgeBaseInfo | src/rag_service.py:199-205 | with the in-memory store the count is the number of stored documents and the status is never error |
| Rag.AddDocuments | src/rag_service.py:176-190 | the call raises exactly for an empty batch or a failing embedder, leaving the service unchanged; otherwise the store gains the documents, their passage embeddings, the metadata (`{}` each when omitted) and generated ids; nothing but the store changes |
| Rag.AddMakesReady | src/rag_service.py:176-205 | after a successful add the status report is ready, with the earlier count plus the batch size and `top_k` unchanged |
| Rag.ClearKnowledgeBase | src/rag_service.py:214-222 | clearing empties all four lists of the store and changes nothing else in the service; the info then reports count 0 and status empty |
| Rag.ServiceStaysEmbedded | src/rag_service.py:176-222 | adding through the service and clearing it both keep every stored vector the embedding of its own document under the service's embedder |
| Documents.Suffix | src/document_processor.py:60-64 | the suffix is empty or a dot followed by dot-free text ending the file name; it is empty only when no dot strictly inside the name is its last dot |
| Documents.FileName | src/document_processor.py:60-64 | the file name contains no slash, and a path without a slash is its own file name |
| Documents.NameAfterLastSlash | src/document_processor.py:60-64 | a path not ending in a slash has as its file name exactly the text after its last slash |
| Documents.UpperCaseSuffix | src/document_processor.py:60-68 | `docs/Report.PDF` has suffix `.PDF` as written, which lower-cases to the PDF loader |
| Documents.Lower | src/document_processor.py:64 | lower-casing keeps the length and maps exactly the letters A-Z to a-z |
| Documents.LowerIdempotent | src/document_processor.py:64 | lower-casing an already lower-cased suffix changes nothing |
| Documents.LoaderFor | src/document_processor.py:68-75 | the PDF loader is chosen exactly for `.pdf`, the Word loader exactly for `.docx` and `.doc`, the text loader exactly for `.txt` and `.md`, and no loader for any other suffix |
| Documents.LoadPdf | src/document_processor.py:84-108 | without PyPDF2 an ImportError; otherwise the page texts joined by newlines with `source`, `format = pdf` and `pages` = page count |
| Documents.LoadDocx | src/document_processor.py:110-129 | without python-docx an ImportError; otherwise the paragraph texts joined by newlines with `source`, `format = docx` and `paragraphs` = paragraph count |
| Documents.LoadTxt | src/document_processor.py:131-158 | the decoded text with `source`, `format = txt` and `size` = its length |
| Documents.LoadFile | src/document_processor.py:46-82 | a missing file raises FileNotFoundError before the suffix is examined; an existing file goes to the loader chosen for its lower-cased suffix, and a suffix with no loader raises ValueError naming it |
| Documents.LoadFileCaseInsensitive | src/document_processor.py:64-75 | suffixes equal after lower-casing dispatch the same way and yield the same text |
| Documents.SupportedMeansLoadable | src/document_processor.py:68-75 | for an existing file, the loader neither rejects the suffix nor lacks its library exactly when the lower-cased suffix is among the supported formats |
| Documents.PdfPagesRecoverable | src/document_processor.py:95-103 | the pages of a PDF whose pages hold no newline are recovered from the loaded text, and `pages` is their count |
| Documents.DocxParagraphsRecoverable | src/document_processor.py:117-123 | the paragraphs of a Word file whose paragraphs hold no newline are recovered from the loaded text, and `paragraphs` is their count |
| Documents.SplitText | src/document_processor.py:170-177 | blank text gives no chunks without consulting the splitter; other text gives the splitter's chunks |
| Documents.ProcessFile | src/document_processor.py:183-195 | processing fails exactly when loading fails; otherwise it gives the split text and the loader's metadata |
| Documents.BlankTextFileHasNoChunks | src/document_processor.py:170-172 | a whitespace-only text file yields no chunks whatever the splitter, with `size` its length |
| Documents.GetSupportedFormats | src/document_processor.py:197-208 | the list starts with `.txt`, `.md`; it has `.pdf` exactly when PyPDF2 is available and `.docx`, `.doc` exactly when python-docx is |
| DeepSeek.OrElse | src/deepseek_client.py:22-24 | a non-empty explicit argument wins; `None` or `""` falls back to the setting |
| DeepSeek.NewClient | src/deepseek_client.py:13-33 | construction raises ValueError exactly when the resolved key is empty; otherwise key, base URL and model are each the explicit argument when it is non-empty and the setting when it is omitted or empty |
| DeepSeek.NoKeyNoClient | src/deepseek_client.py:26-30 | with the default settings (no key in the environment) and no key passed in, construction fails |
| DeepSeek.SettingsClient | src/deepseek_client.py:22-24 | with a key in the environment, a client built without arguments takes every value from the settings, and an explicit key wins over the setting |
| DeepSeek.CountTokensEstimate | src/deepseek_client.py:98-109 | the estimate `r` satisfies `4r <= len(text) < 4r + 4` (floor division by 4) and never exceeds the length |
| DeepSeek.EstimateMonotone | src/deepseek_client.py:109 | a longer text never has a smaller estimate |
| DeepSeek.CountMessagesTokens | src/deepseek_client.py:111-128 | the loop computes the sum of per-message estimates plus four per message, which is at least `4 * len(messages)` |
| DeepSeek.MessagesTokensAppend | src/deepseek_client.py:121-128 | the estimate of two concatenated lists is the sum of their estimates |
| DeepSeek.SingleMessageTokens | src/deepseek_client.py:123-127 | one message costs its estimate plus 4, and one without `content` costs exactly 4 |
| DeepSeek.FilterDeltas | src/deepseek_client.py:90-92 | every yielded fragment is non-empty and there are no more fragments than chunks |
| DeepSeek.FilterDeltasAppend | src/deepseek_client.py:90-92 | filtering a stream in two parts is filtering each part, so stream order is kept |
| DeepSeek.FilterSingle | src/deepseek_client.py:91-92 | a single chunk is yielded exactly when its content is present and non-empty |
| DeepSeek.FilterKeepsText | src/deepseek_client.py:90-92 | the concatenated fragments equal the concatenated delta contents, missing ones read as empty |

## Left out

- The Streamlit UI (`app.py`), its session state, progress display and temp-file
  handling. Its upload loop unpacks the pair from `process_file` correctly, then
  iterates the metadata dict itself. The loop variable is therefore a key string,
  and assigning `m["filename"]` raises TypeError. That path is not modelled.
- The ChromaDB handler, the FlagEmbedding model and its FP16 fallback,
  configuration loading, directory creation and logging. These are thin wrappers
  over foreign libraries or side effects.
- The chat model's HTTP calls (`chat`, and the request in `chat_stream`). A stream
  is given as the sequence of its delta contents.
- Rag.GenerateResponseWithRag: the `temperature` and `max_tokens` arguments are not
  modelled. They are forwarded unchanged to `chat_stream` and only shape the
  request, so the model's `chat` takes the message list alone.
- Floating point. Similarities and distances are Dafny reals, cosine similarity is
  an arbitrary function, and the `{:.2%}` rendering is an opaque formatter.
- The langchain splitter's chunk-size and overlap behaviour. That is foreign code
  and the splitter is an arbitrary function.
- MemoryKB.Retrieve: does not model the exception the similarity computation
  raises when stored vectors differ in length. Similarity is a total function
  here.
- DeepSeek.FilterDeltas: does not model the `IndexError` raised by a stream chunk
  with an empty `choices` list. A chunk is its delta content.
- Documents.SplitText: does not model the splitter raising. The splitter is total.
- Documents.Lower: lowers ASCII letters only. Two other characters lower to
  ASCII in Python: KELVIN SIGN (U+212A) becomes `k`, and LATIN CAPITAL LETTER
  I WITH DOT ABOVE (U+0130) becomes `i` followed by a combining dot, which also
  changes the length. No supported suffix contains `k` or `i`, so dispatch is
  unaffected.
- Documents.Suffix: the file name ignores trailing slashes. pathlib's other
  normalisations (repeated slashes, `.` components) are not modelled, and the
  metadata `source` is the path as given rather than `str(Path(path))`.
- Documents.FileName: `.` components and repeated slashes are not normalised,
  so `FileName(".")` is `"."` where `Path(".").name` is `""`.
- Documents.LoadPdf: `source` is the path as given, not `str(Path(path))`.
- Documents.LoadDocx: `source` is the path as given, not `str(Path(path))`.
- Documents.LoadTxt: `source` is the path as given, not `str(Path(path))`.
- Documents.LoadTxt: the UTF-8 then GBK decoding is part of the abstract file
  view; only its result, or its failure, is used.
- The embedding dimension (384) is not represented. Vectors are sequences of any
  length, and nothing in the modelled code checks their length.
- MemoryKB.AllDocuments: does not model aliasing of metadata dicts. In Python,
  `.copy()` is shallow and `add_documents` stores the caller's own dicts, so
  mutating a supplied or returned dict changes the store. Values here are
  immutable.

=== FILE: common.dfy ===
/** Shared vocabulary of the model: the exceptions the pipeline raises, result
    wrappers, and the few Python string operations the pipeline relies on
    (`str.strip()` emptiness, `"sep".join`, `"".join`, `str(int)`). */
module Common {

  /** The exception classes raised or propagated by the modelled code. */
  datatype Error =
    | ValueError(message: string)
    | FileNotFoundError(path: string)
    | ImportError(message: string)
    | IndexError
      /** a failure raised inside an external collaborator (embedding model, file decoder) */
    | BackendError

  datatype Result<+T> = Ok(value: T) | Err(error: Error)

  datatype Option<+T> = None | Some(value: T)

  /** The outcome of an operation that returns nothing but may raise. */
  datatype Outcome = Done | Raised(error: Error)

  /** A metadata value: the modelled code only ever stores strings and ints. */
  datatype MetaValue = Str(s: string) | Int(i: int)

  /** A metadata dictionary, `Dict[str, Any]` restricted to the values above. */
  type Metadata = map<string, MetaValue>

  /** A chat message, a Python `Dict[str, str]` such as `{"role": ..., "content": ...}`. */
  type Message = map<string, string>

  function Msg(role: string, content: string): (m: Message)
    ensures m.Keys == {"role", "content"} && m["role"] == role && m["content"] == content
  {
    map["role" := role, "content" := content]
  }

  // ---------------------------------------------------------------------------
  // Whitespace and `str.strip()`
  // ---------------------------------------------------------------------------

  /** The characters Python's argument-less `str.strip()` removes. */
  predicate IsSpace(c: char)
  {
    || ('\t' <= c <= '\r')
    || ('\U{1C}' <= c <= '\U{1F}')
    || c == ' '
    || c == '\U{85}'
    || c == '\U{A0}'
    || c == '\U{1680}'
    || ('\U{2000}' <= c <= '\U{200A}')
    || c == '\U{2028}'
    || c == '\U{2029}'
    || c == '\U{202F}'
    || c == '\U{205F}'
    || c == '\U{3000}'
  }

  /** Python's `s.lstrip()`. */
  function LStrip(s: string): (r: string)
    ensures |r| <= |s| && r == s[|s| - |r|..]
    ensures r != "" ==> !IsSpace(r[0])
    ensures forall i :: 0 <= i < |s| - |r| ==> IsSpace(s[i])
  {
    if s == [] || !IsSpace(s[0]) then s else LStrip(s[1..])
  }

  /** Python's `s.rstrip()`. */
  function RStrip(s: string): (r: string)
    ensures |r| <= |s| && r == s[..|r|]
    ensures r != "" ==> !IsSpace(r[|r| - 1])
    ensures forall i :: |r| <= i < |s| ==> IsSpace(s[i])
  {
    if s == [] || !IsSpace(s[|s| - 1]) then s else RStrip(s[..|s| - 1])
  }

  /** Python's `s.strip()`. */
  function Strip(s: string): string
  {
    RStrip(LStrip(s))
  }

  /** The guard `not s or not s.strip()`: the text is empty or all whitespace. */
  predicate IsBlank(s: string)
  {
    forall i :: 0 <= i < |s| ==> IsSpace(s[i])
  }

  /** `IsBlank` is exactly the emptiness of `s.strip()`, in both directions. */
  lemma {:induction false} BlankIffStripEmpty(s: string)
    ensures IsBlank(s) <==> Strip(s) == ""
  {
    var l := LStrip(s);
    if !IsBlank(s) {
      var k :| 0 <= k < |s| && !IsSpace(s[k]);
      assert l[k - (|s| - |l|)] == s[k];
    }
  }

  // ---------------------------------------------------------------------------
  // Joining and splitting
  // ---------------------------------------------------------------------------

  /** Python's `sep.join(parts)`. */
  function Join(sep: string, parts: seq<string>): (r: string)
    ensures |parts| == 1 ==> r == parts[0]
    ensures |parts| > 1 ==> r == parts[0] + sep + Join(sep, parts[1..])
  {
    if |parts| == 0 then ""
    else if |parts| == 1 then parts[0]
    else parts[0] + sep + Join(sep, parts[1..])
  }

  /** Python's `"".join(parts)`. */
  function Concat(parts: seq<string>): string
  {
    if parts == [] then "" else parts[0] + Concat(parts[1..])
  }

  lemma {:induction false} ConcatAppend(a: seq<string>, b: seq<string>)
    ensures Concat(a + b) == Concat(a) + Concat(b)
  {
    if a != [] {
      assert (a + b)[1..] == a[1..] + b;
      ConcatAppend(a[1..], b);
    } else {
      assert a + b == b;
    }
  }

  /** The position of the first `c` in `s`, Python's `s.index(c)`. */
  function FirstIndex<T(==)>(s: seq<T>, c: T): (i: nat)
    requires c in s
    ensures i < |s| && s[i] == c && c !in s[..i]
  {
    if s[0] == c then 0 else 1 + FirstIndex(s[1..], c)
  }

  /** Python's `s.split(c)` for a one-character separator. */
  function Split(s: string, c: char): (r: seq<string>)
    ensures |r| >= 1
    decreases |s|
  {
    if c !in s then [s]
    else
      var i := FirstIndex(s, c);
      [s[..i]] + Split(s[i + 1..], c)
  }

  /** Joining with a one-character separator that occurs in no part is undone
      by splitting on it: the parts are recovered exactly. */
  lemma {:induction false} SplitJoin(parts: seq<string>, c: char)
    requires |parts| >= 1
    requires forall k :: 0 <= k < |parts| ==> c !in parts[k]
    ensures Split(Join([c], parts), c) == parts
  {
    if |parts| == 1 {
    } else {
      var rest := Join([c], parts[1..]);
      var s := parts[0] + [c] + rest;
      assert s[|parts[0]|] == c;
      assert s[..|parts[0]|] == parts[0];
      assert FirstIndex(s, c) == |parts[0]|;
      assert s[|parts[0]| + 1..] == rest;
      SplitJoin(parts[1..], c);
    }
  }

  // ---------------------------------------------------------------------------
  // Decimal rendering, Python's `str(n)` / f-string `{n}` on an int
  // ---------------------------------------------------------------------------

  function DigitChar(d: nat): (c: char)
    requires d < 10
    ensures '0' <= c <= '9'
  {
    ['0', '1', '2', '3', '4', '5', '6', '7', '8', '9'][d]
  }

  function NatToString(n: nat): (r: string)
    ensures |r| >= 1
    ensures forall i :: 0 <= i < |r| ==> '0' <= r[i] <= '9'
    ensures n >= 10 ==> |r| >= 2
  {
    if n < 10 then [DigitChar(n)] else NatToString(n / 10) + [DigitChar(n % 10)]
  }

  function IntToString(n: int): (r: string)
    ensures |r| >= 1
    ensures '_' !in r
  {
    if n < 0 then "-" + NatToString(-n) else NatToString(n)
  }

  lemma DigitCharInjective(a: nat, b: nat)
    requires a < 10 && b < 10 && DigitChar(a) == DigitChar(b)
    ensures a == b
  {
  }

  /** Distinct numbers render to distinct decimal strings. */
  lemma {:induction false} NatToStringInjective(a: nat, b: nat)
    requires NatToString(a) == NatToString(b)
    ensures a == b
  {
    var sa, sb := NatToString(a), NatToString(b);
    if a < 10 && b < 10 {
      DigitCharInjective(a, b);
    } else if a >= 10 && b >= 10 {
      assert sa[|sa| - 1] == DigitChar(a % 10);
      assert sb[|sb| - 1] == DigitChar(b % 10);
      DigitCharInjective(a % 10, b % 10);
      assert sa[..|sa| - 1] == NatToString(a / 10);
      assert sb[..|sb| - 1] == NatToString(b / 10);
      NatToStringInjective(a / 10, b / 10);
    }
  }
}

=== FILE: deepseek_client.dfy ===
/** The client-side logic of the DeepSeek chat client: credential resolution,
    token estimation and the filtering of streamed deltas. The HTTP calls are
    not modelled; a stream is the sequence of delta contents it delivered. */
module DeepSeek {
  import opened Common

  /** The configuration values the client falls back on. */
  datatype Settings = Settings(apiKey: string, baseUrl: string, model: string)

  /** The settings when the environment defines none of the variables. */
  const DefaultSettings: Settings :=
    Settings("", "https://api.deepseek.com/v1", "deepseek-chat")

  /** The resolved configuration of a constructed client. */
  datatype Client = Client(apiKey: string, baseUrl: string, model: string)

  /** Python's `arg or fallback` for an optional string argument: `None` and
      `""` are both falsy. */
  function OrElse(arg: Option<string>, fallback: string): (r: string)
    ensures arg.Some? && arg.value != "" ==> r == arg.value
    ensures arg.None? || arg.value == "" ==> r == fallback
  {
    if arg.Some? && arg.value != "" then arg.value else fallback
  }

  /** `DeepSeekClient(api_key, base_url, model)`: each explicit non-empty
      argument overrides its setting; an empty resolved key raises
      `ValueError`. */
  function NewClient(settings: Settings, apiKey: Option<string>, baseUrl: Option<string>, model: Option<string>): (r: Result<Client>)
    ensures r.Err? <==> OrElse(apiKey, settings.apiKey) == ""
    ensures r.Err? ==> r.error.ValueError?
    ensures r.Ok? ==> r.value.apiKey != ""
    ensures r.Ok? && apiKey.Some? && apiKey.value != "" ==> r.value.apiKey == apiKey.value
    ensures r.Ok? && baseUrl.Some? && baseUrl.value != "" ==> r.value.baseUrl == baseUrl.value
    ensures r.Ok? && model.Some? && model.value != "" ==> r.value.model == model.value
    ensures r.Ok? && (baseUrl.None? || baseUrl.value == "") ==> r.value.baseUrl == settings.baseUrl
    ensures r.Ok? && (model.None? || model.value == "") ==> r.value.model == settings.model
    ensures r.Ok? ==> r.value == Client(OrElse(apiKey, settings.apiKey), OrElse(baseUrl, settings.baseUrl),
                                       OrElse(model, settings.model))
  {
    var key := OrElse(apiKey, settings.apiKey);
    var url := OrElse(baseUrl, settings.baseUrl);
    var name := OrElse(model, settings.model);
    if key == "" then
      Err(ValueError("DeepSeek API key is not configured. Please set DEEPSEEK_API_KEY in .env file"))
    else Ok(Client(key, url, name))
  }

  /** Without a key in the environment and none passed in, construction fails. */
  lemma NoKeyNoClient(baseUrl: Option<string>, model: Option<string>)
    ensures NewClient(DefaultSettings, None, baseUrl, model).Err?
    ensures NewClient(DefaultSettings, Some(""), baseUrl, model).Err?
  {
  }

  /** With a key in the environment, a client built without arguments takes
      every value from the settings; an explicit key always wins over it. */
  lemma SettingsClient(settings: Settings, apiKey: string)
    requires settings.apiKey != ""
    ensures NewClient(settings, None, None, None)
         == Ok(Client(settings.apiKey, settings.baseUrl, settings.model))
    ensures apiKey != "" ==>
      NewClient(settings, Some(apiKey), None, None) == Ok(Client(apiKey, settings.baseUrl, settings.model))
  {
  }

  // ---------------------------------------------------------------------------
  // Token estimation
  // ---------------------------------------------------------------------------

  /** `count_tokens_estimate(text)`: `len(text) // 4`, one token per four
      characters, rounded down. */
  function CountTokensEstimate(text: string): (r: nat)
    ensures 4 * r <= |text| < 4 * r + 4
    ensures r <= |text|
  {
    |text| / 4
  }

  /** A longer text never has a smaller estimate. */
  lemma EstimateMonotone(a: string, b: string)
    requires |a| <= |b|
    ensures CountTokensEstimate(a) <= CountTokensEstimate(b)
  {
  }

  /** `message.get("content", "")`. */
  function ContentOf(m: Message): string
  {
    if "content" in m then m["content"] else ""
  }

  /** Reference definition of `count_messages_tokens`: per-message estimates
      plus a four-token header for each message. */
  function MessagesTokens(messages: seq<Message>): nat
  {
    if messages == [] then 0
    else
      var n := |messages| - 1;
      MessagesTokens(messages[..n]) + CountTokensEstimate(ContentOf(messages[n])) + 4
  }

  /** `count_messages_tokens(messages)`: accumulates the estimates in a loop,
      then adds `4 * len(messages)`. */
  method CountMessagesTokens(messages: seq<Message>) returns (total: nat)
    ensures total == MessagesTokens(messages)
    ensures total >= 4 * |messages|
  {
    var sum: nat := 0;
    var i := 0;
    while i < |messages|
      invariant 0 <= i <= |messages|
      invariant sum + 4 * i == MessagesTokens(messages[..i])
      invariant MessagesTokens(messages[..i]) >= 4 * i
    {
      assert messages[..i + 1][..i] == messages[..i];
      sum := sum + CountTokensEstimate(ContentOf(messages[i]));
      i := i + 1;
    }
    assert messages[..i] == messages;
    total := sum + 4 * |messages|;
  }

  /** The estimate of a concatenated message list is the sum of the parts. */
  lemma {:induction false} MessagesTokensAppend(a: seq<Message>, b: seq<Message>)
    ensures MessagesTokens(a + b) == MessagesTokens(a) + MessagesTokens(b)
    decreases |b|
  {
    if b == [] {
      assert a + b == a;
    } else {
      var n := |b| - 1;
      assert (a + b)[..|a + b| - 1] == a + b[..n];
      MessagesTokensAppend(a, b[..n]);
    }
  }

  /** A single message costs its estimate plus four; one with no `content`
      key costs exactly four. */
  lemma SingleMessageTokens(m: Message)
    ensures MessagesTokens([m]) == CountTokensEstimate(ContentOf(m)) + 4
    ensures "content" !in m ==> MessagesTokens([m]) == 4
  {
    assert [m][..0] == [];
  }

  // ---------------------------------------------------------------------------
  // Streaming
  // ---------------------------------------------------------------------------

  /** The `delta.content` of each streamed chunk, `None` for a missing one. */
  type Stream = seq<Option<string>>

  /** Whether `chat_stream` passes a delta on: Python's truthiness of
      `delta.content`. */
  predicate Forwarded(d: Option<string>)
  {
    d.Some? && d.value != ""
  }

  /** The fragments `chat_stream` yields for a stream: the non-empty delta
      contents, in stream order. */
  function FilterDeltas(stream: Stream): (r: seq<string>)
    ensures |r| <= |stream|
    ensures forall k :: 0 <= k < |r| ==> r[k] != ""
  {
    if stream == [] then []
    else
      var n := |stream| - 1;
      FilterDeltas(stream[..n]) + (if Forwarded(stream[n]) then [stream[n].value] else [])
  }

  /** Filtering a stream delivered in two parts is filtering each part. */
  lemma {:induction false} FilterDeltasAppend(a: Stream, b: Stream)
    ensures FilterDeltas(a + b) == FilterDeltas(a) + FilterDeltas(b)
    decreases |b|
  {
    if b == [] {
      assert a + b == a;
    } else {
      var n := |b| - 1;
      assert (a + b)[..|a + b| - 1] == a + b[..n];
      assert (a + b)[|a + b| - 1] == b[n];
      FilterDeltasAppend(a, b[..n]);
    }
  }

  /** Every forwarded delta is yielded and nothing else: a one-chunk stream
      yields its content exactly when that content is non-empty. */
  lemma FilterSingle(d: Option<string>)
    ensures FilterDeltas([d]) == if Forwarded(d) then [d.value] else []
  {
    assert [d][..0] == [];
  }

  /** The text the caller assembles from the yielded fragments is the text of
      all deltas, with missing contents read as empty. */
  function StreamText(stream: Stream): string
  {
    if stream == [] then ""
    else
      var n := |stream| - 1;
      StreamText(stream[..n]) + (if stream[n].Some? then stream[n].value else "")
  }

  lemma {:induction false} FilterKeepsText(stream: Stream)
    ensures Concat(FilterDeltas(stream)) == StreamText(stream)
    decreases |stream|
  {
    if stream != [] {
      var n := |stream| - 1;
      var last := if Forwarded(stream[n]) then [stream[n].value] else [];
      FilterKeepsText(stream[..n]);
      ConcatAppend(FilterDeltas(stream[..n]), last);
      if Forwarded(stream[n]) {
        assert Concat(last) == stream[n].value + Concat([]);
      }
    }
  }
}

=== FILE: document_processor.dfy ===
/** The document processor: choosing a loader by file suffix, the text and
    metadata each loader builds, the blank-text guard in front of the text
    splitter, and the list of supported formats. Reading and decoding files is
    foreign code, so a file is described by what each decoder would make of it;
    the splitter is a function parameter. */
module Documents {
  import opened Common

  /** Which optional libraries imported successfully. */
  datatype Libraries = Libraries(pypdf2: bool, pythonDocx: bool)

  /** What the file system and the decoders report for one path: whether the
      path exists, the PDF page texts, the Word paragraph texts, and the
      decoded text (UTF-8, falling back to GBK); `None` where that decoder
      raises. */
  datatype FileView = FileView(
    present: bool,
    pdfPages: Option<seq<string>>,
    docxParagraphs: Option<seq<string>>,
    text: Option<string>)

  type FileSystem = string -> FileView

  /** The text splitter, foreign code; only the guard in front of it is modelled. */
  type Splitter = string -> seq<string>

  // ---------------------------------------------------------------------------
  // Paths
  // ---------------------------------------------------------------------------

  /** `Path(p).name`: the last component, ignoring trailing slashes. */
  function FileName(path: string): (r: string)
    ensures '/' !in r
    ensures '/' !in path ==> r == path
    decreases |path|
  {
    if path == [] then ""
    else if path[|path| - 1] == '/' then FileName(path[..|path| - 1])
    else if '/' in path then
      var i := LastIndex(path, '/');
      path[i + 1..]
    else path
  }

  function LastIndex(s: string, c: char): (i: nat)
    requires c in s
    ensures i < |s| && s[i] == c && c !in s[i + 1..]
  {
    if s[|s| - 1] == c then |s| - 1
    else
      assert c in s[..|s| - 1] by {
        var k :| 0 <= k < |s| && s[k] == c;
        assert s[..|s| - 1][k] == c;
      }
      LastIndex(s[..|s| - 1], c)
  }

  /** A position holding `c` with no `c` after it is the last index of `c`. */
  lemma {:induction false} LastIndexAt(s: string, c: char, i: nat)
    requires i < |s| && s[i] == c && c !in s[i + 1..]
    ensures c in s && LastIndex(s, c) == i
    decreases |s|
  {
    if i < |s| - 1 {
      assert s[|s| - 1] == s[i + 1..][|s| - 1 - (i + 1)];
      var t := s[..|s| - 1];
      assert t[i] == c;
      assert t[i + 1..] == s[i + 1..][..|s| - 1 - (i + 1)];
      LastIndexAt(t, c, i);
    }
  }

  /** `Path(p).suffix`: from the last dot of the name, unless that dot is the
      name's first or last character. */
  function Suffix(path: string): (r: string)
    ensures r == "" || (|r| >= 2 && r[0] == '.' && '.' !in r[1..])
    ensures r == "" ==> var name := FileName(path);
      forall i :: 0 < i < |name| - 1 && name[i] == '.' ==> '.' in name[i + 1..]
    ensures r != "" ==> var name := FileName(path);
      |r| < |name| && name[|name| - |r|..] == r
  {
    var name := FileName(path);
    if '.' !in name then ""
    else
      var i := LastIndex(name, '.');
      if 0 < i < |name| - 1 then name[i..] else ""
  }

  /** `str.lower()` on ASCII letters. */
  function Lower(s: string): (r: string)
    ensures |r| == |s|
    ensures forall k :: 0 <= k < |s| ==>
      r[k] == if 'A' <= s[k] <= 'Z' then (s[k] as int + 32) as char else s[k]
  {
    seq(|s|, k requires 0 <= k < |s| => if 'A' <= s[k] <= 'Z' then (s[k] as int + 32) as char else s[k])
  }

  lemma LowerIdempotent(s: string)
    ensures Lower(Lower(s)) == Lower(s)
  {
  }

  // ---------------------------------------------------------------------------
  // Loading
  // ---------------------------------------------------------------------------

  datatype Loader = Pdf | Word | PlainText

  /** The loader `load_file` picks for a lower-cased suffix. */
  function LoaderFor(suffix: string): (r: Option<Loader>)
    ensures r == Some(Pdf) <==> suffix == ".pdf"
    ensures r == Some(Word) <==> suffix == ".docx" || suffix == ".doc"
    ensures r == Some(PlainText) <==> suffix == ".txt" || suffix == ".md"
  {
    if suffix == ".pdf" then Some(Pdf)
    else if suffix in [".docx", ".doc"] then Some(Word)
    else if suffix in [".txt", ".md"] then Some(PlainText)
    else None
  }

  /** `_load_pdf`: the page texts joined by newlines. */
  function LoadPdf(libs: Libraries, f: FileView, path: string): (r: Result<(string, Metadata)>)
    ensures !libs.pypdf2 ==> r.Err? && r.error.ImportError?
    ensures libs.pypdf2 && f.pdfPages.Some? ==>
      var pages := f.pdfPages.value;
      r == Ok((Join("\n", pages),
               map["source" := Str(path), "format" := Str("pdf"), "pages" := Int(|pages|)]))
    ensures libs.pypdf2 && f.pdfPages.None? ==> r == Err(BackendError)
  {
    if !libs.pypdf2 then Err(ImportError("PyPDF2 is not installed. Install it with: pip install PyPDF2"))
    else
      match f.pdfPages
      case None => Err(BackendError)
      case Some(pages) =>
        Ok((Join("\n", pages),
            map["source" := Str(path), "format" := Str("pdf"), "pages" := Int(|pages|)]))
  }

  /** `_load_docx`: the paragraph texts joined by newlines. */
  function LoadDocx(libs: Libraries, f: FileView, path: string): (r: Result<(string, Metadata)>)
    ensures !libs.pythonDocx ==> r.Err? && r.error.ImportError?
    ensures libs.pythonDocx && f.docxParagraphs.Some? ==>
      var paragraphs := f.docxParagraphs.value;
      r == Ok((Join("\n", paragraphs),
               map["source" := Str(path), "format" := Str("docx"), "paragraphs" := Int(|paragraphs|)]))
    ensures libs.pythonDocx && f.docxParagraphs.None? ==> r == Err(BackendError)
  {
    if !libs.pythonDocx then
      Err(ImportError("python-docx is not installed. Install it with: pip install python-docx"))
    else
      match f.docxParagraphs
      case None => Err(BackendError)
      case Some(paragraphs) =>
        Ok((Join("\n", paragraphs),
            map["source" := Str(path), "format" := Str("docx"), "paragraphs" := Int(|paragraphs|)]))
  }

  /** `_load_txt`: the decoded text and its length in characters. */
  function LoadTxt(f: FileView, path: string): (r: Result<(string, Metadata)>)
    ensures f.text.Some? ==>
      r == Ok((f.text.value,
               map["source" := Str(path), "format" := Str("txt"), "size" := Int(|f.text.value|)]))
    ensures f.text.None? ==> r == Err(BackendError)
  {
    match f.text
    case None => Err(BackendError)
    case Some(text) =>
      Ok((text, map["source" := Str(path), "format" := Str("txt"), "size" := Int(|text|)]))
  }

  /** `load_file(path)`: a missing file raises `FileNotFoundError` before the
      suffix is looked at; an unknown suffix raises `ValueError`. */
  function LoadFile(fs: FileSystem, libs: Libraries, path: string): (r: Result<(string, Metadata)>)
    ensures !fs(path).present ==> r == Err(FileNotFoundError(path))
    ensures fs(path).present && LoaderFor(Lower(Suffix(path))).None? ==>
      r == Err(ValueError("Unsupported file format: " + Lower(Suffix(path))))
    ensures fs(path).present && LoaderFor(Lower(Suffix(path))) == Some(Pdf) ==> r == LoadPdf(libs, fs(path), path)
    ensures fs(path).present && LoaderFor(Lower(Suffix(path))) == Some(Word) ==> r == LoadDocx(libs, fs(path), path)
    ensures fs(path).present && LoaderFor(Lower(Suffix(path))) == Some(PlainText) ==> r == LoadTxt(fs(path), path)
  {
    var f := fs(path);
    if !f.present then Err(FileNotFoundError(path))
    else
      var suffix := Lower(Suffix(path));
      match LoaderFor(suffix)
      case Some(Pdf) => LoadPdf(libs, f, path)
      case Some(Word) => LoadDocx(libs, f, path)
      case Some(PlainText) => LoadTxt(f, path)
      case None => Err(ValueError("Unsupported file format: " + suffix))
  }

  /** Suffixes that differ only in letter case dispatch the same way. */
  lemma LoadFileCaseInsensitive(fs: FileSystem, libs: Libraries, p: string, q: string)
    requires fs(p) == fs(q) && Lower(Suffix(p)) == Lower(Suffix(q))
    ensures LoadFile(fs, libs, p).Ok? <==> LoadFile(fs, libs, q).Ok?
    ensures LoadFile(fs, libs, p).Ok? ==> LoadFile(fs, libs, p).value.0 == LoadFile(fs, libs, q).value.0
  {
    var f := fs(p);
    if f.present {
      match LoaderFor(Lower(Suffix(p)))
      case Some(Pdf) =>
        assert LoadFile(fs, libs, p) == LoadPdf(libs, f, p);
        assert LoadFile(fs, libs, q) == LoadPdf(libs, f, q);
      case Some(Word) =>
        assert LoadFile(fs, libs, p) == LoadDocx(libs, f, p);
        assert LoadFile(fs, libs, q) == LoadDocx(libs, f, q);
      case Some(PlainText) =>
        assert LoadFile(fs, libs, p) == LoadTxt(f, p);
        assert LoadFile(fs, libs, q) == LoadTxt(f, q);
      case None =>
    }
  }

  /** `load_file` and `get_supported_formats` agree: for an existing file, the
      loader neither rejects the suffix nor misses a library exactly when the
      lower-cased suffix is among the advertised formats. */
  lemma SupportedMeansLoadable(fs: FileSystem, libs: Libraries, path: string)
    requires fs(path).present
    ensures var r := LoadFile(fs, libs, path);
      Lower(Suffix(path)) in GetSupportedFormats(libs) <==>
        !(r.Err? && (r.error.ValueError? || r.error.ImportError?))
  {
    var f := fs(path);
    var suffix := Lower(Suffix(path));
    var formats := GetSupportedFormats(libs);
    if LoaderFor(suffix) == Some(Pdf) {
      assert suffix in formats <==> libs.pypdf2;
    } else if LoaderFor(suffix) == Some(Word) {
      assert suffix in formats <==> libs.pythonDocx;
    }
  }

  /** The page texts of a PDF whose pages contain no newline can be read
      back from the loaded text. */
  lemma PdfPagesRecoverable(fs: FileSystem, libs: Libraries, path: string)
    requires fs(path).present && libs.pypdf2 && Lower(Suffix(path)) == ".pdf"
    requires fs(path).pdfPages.Some? && |fs(path).pdfPages.value| >= 1
    requires forall k :: 0 <= k < |fs(path).pdfPages.value| ==> '\n' !in fs(path).pdfPages.value[k]
    ensures LoadFile(fs, libs, path).Ok?
    ensures Split(LoadFile(fs, libs, path).value.0, '\n') == fs(path).pdfPages.value
    ensures LoadFile(fs, libs, path).value.1["pages"] == Int(|fs(path).pdfPages.value|)
  {
    SplitJoin(fs(path).pdfPages.value, '\n');
  }

  /** The paragraph texts of a Word file whose paragraphs contain no newline
      can be read back from the loaded text. */
  lemma DocxParagraphsRecoverable(fs: FileSystem, libs: Libraries, path: string)
    requires fs(path).present && libs.pythonDocx && Lower(Suffix(path)) in [".docx", ".doc"]
    requires fs(path).docxParagraphs.Some? && |fs(path).docxParagraphs.value| >= 1
    requires forall k :: 0 <= k < |fs(path).docxParagraphs.value| ==> '\n' !in fs(path).docxParagraphs.value[k]
    ensures LoadFile(fs, libs, path).Ok?
    ensures Split(LoadFile(fs, libs, path).value.0, '\n') == fs(path).docxParagraphs.value
    ensures LoadFile(fs, libs, path).value.1["paragraphs"] == Int(|fs(path).docxParagraphs.value|)
  {
    SplitJoin(fs(path).docxParagraphs.value, '\n');
  }

  /** A path not ending in a slash names what follows its last slash. */
  lemma NameAfterLastSlash(path: string, i: nat)
    requires i < |path| - 1 && path[i] == '/' && '/' !in path[i + 1..]
    ensures FileName(path) == path[i + 1..]
  {
    assert path[|path| - 1] == path[i + 1..][|path| - 1 - (i + 1)];
    LastIndexAt(path, '/', i);
  }

  /** A file name with an upper-case extension keeps it as written; the
      dispatch lower-cases it. */
  lemma UpperCaseSuffix()
    ensures Suffix("docs/Report.PDF") == ".PDF"
    ensures LoaderFor(Lower(Suffix("docs/Report.PDF"))) == Some(Pdf)
  {
    var path := "docs/Report.PDF";
    assert path[5..] == "Report.PDF";
    NameAfterLastSlash(path, 4);
    var name := "Report.PDF";
    assert '/' !in name;
    assert FileName(name) == name;
    assert name[7..] == "PDF";
    LastIndexAt(name, '.', 6);
    assert Suffix(name) == ".PDF";
    var low := Lower(".PDF");
    assert low[0] == '.' && low[1] == 'p' && low[2] == 'd' && low[3] == 'f';
    assert low == ".pdf";
  }

  // ---------------------------------------------------------------------------
  // Splitting and processing
  // ---------------------------------------------------------------------------

  /** `split_text(text)`: blank text gives no chunks without consulting the
      splitter; anything else is the splitter's output. */
  function SplitText(splitter: Splitter, text: string): (r: seq<string>)
    ensures IsBlank(text) ==> r == []
    ensures !IsBlank(text) ==> r == splitter(text)
  {
    if IsBlank(text) then [] else splitter(text)
  }

  /** `process_file(path)`: load, then split; the metadata is the loader's. */
  function ProcessFile(fs: FileSystem, libs: Libraries, splitter: Splitter, path: string): (r: Result<(seq<string>, Metadata)>)
    ensures LoadFile(fs, libs, path).Err? <==> r.Err?
    ensures r.Ok? ==>
      var (text, metadata) := LoadFile(fs, libs, path).value;
      r.value == (SplitText(splitter, text), metadata)
  {
    match LoadFile(fs, libs, path)
    case Err(err) => Err(err)
    case Ok((text, metadata)) => Ok((SplitText(splitter, text), metadata))
  }

  /** A text file holding only whitespace yields no chunks, whatever the splitter. */
  lemma BlankTextFileHasNoChunks(fs: FileSystem, libs: Libraries, splitter: Splitter, path: string)
    requires fs(path).present && Lower(Suffix(path)) in [".txt", ".md"]
    requires fs(path).text.Some? && IsBlank(fs(path).text.value)
    ensures ProcessFile(fs, libs, splitter, path).Ok?
    ensures ProcessFile(fs, libs, splitter, path).value.0 == []
    ensures ProcessFile(fs, libs, splitter, path).value.1["size"] == Int(|fs(path).text.value|)
  {
    assert LoaderFor(Lower(Suffix(path))) == Some(PlainText);
    assert LoadFile(fs, libs, path) == LoadTxt(fs(path), path);
  }

  /** `get_supported_formats()`. */
  function GetSupportedFormats(libs: Libraries): (r: seq<string>)
    ensures |r| >= 2 && r[..2] == [".txt", ".md"]
    ensures ".pdf" in r <==> libs.pypdf2
    ensures ".docx" in r <==> libs.pythonDocx
    ensures ".doc" in r <==> libs.pythonDocx
    ensures |r| == 2 + (if libs.pypdf2 then 1 else 0) + (if libs.pythonDocx then 2 else 0)
  {
    [".txt", ".md"]
      + (if libs.pypdf2 then [".pdf"] else [])
      + (if libs.pythonDocx then [".docx", ".doc"] else [])
  }
}

=== FILE: embedding.dfy ===
/** The embedding handler as the rest of the pipeline sees it. The model
    itself (BGE-small-zh through FlagEmbedding) is foreign code, so it is a
    value of function type; what the handler itself decides (the empty-batch
    and blank-query short-circuits) is modelled. */
module Embedding {
  import opened Common

  type Vector = seq<real>

  /** Cosine similarity between a query vector and a stored vector; floating
      point is not modelled, only the order of the scores matters. */
  type Similarity = (Vector, Vector) -> real

  /** The embedding backend. `passage` embeds document text as is and `query`
      embeds a query with the retrieval instruction prepended; the two paths are
      deliberately distinct functions. `batchFails` / `queryFails` say for
      which inputs the backend raises. */
  datatype Embedder = Embedder(
    passage: string -> Vector,
    query: string -> Vector,
    batchFails: seq<string> -> bool,
    queryFails: string -> bool)

  /** What `embed_query` returns: the empty-array sentinel or a dense vector. */
  datatype QueryEmbedding = EmptySentinel | Dense(v: Vector)

  /** `embed_texts`: an empty batch gives an empty result without touching the
      model; otherwise one passage vector per text, in order, or the backend's
      failure. */
  function EmbedTexts(e: Embedder, texts: seq<string>): (r: Result<seq<Vector>>)
    ensures texts == [] ==> r == Ok([])
    ensures texts != [] ==> (r.Err? <==> e.batchFails(texts))
    ensures r.Ok? ==> |r.value| == |texts|
    ensures r.Ok? ==> forall i :: 0 <= i < |texts| ==> r.value[i] == e.passage(texts[i])
  {
    if texts == [] then Ok([])
    else if e.batchFails(texts) then Err(BackendError)
    else Ok(seq(|texts|, i requires 0 <= i < |texts| => e.passage(texts[i])))
  }

  /** `embed_query`: a blank query gives the sentinel without touching the
      model; otherwise the query-path vector or the backend's failure. */
  function EmbedQuery(e: Embedder, q: string): (r: Result<QueryEmbedding>)
    ensures IsBlank(q) ==> r == Ok(EmptySentinel)
    ensures !IsBlank(q) ==> (r.Err? <==> e.queryFails(q))
    ensures r.Ok? && !IsBlank(q) ==> r.value == Dense(e.query(q))
  {
    if IsBlank(q) then Ok(EmptySentinel)
    else if e.queryFails(q) then Err(BackendError)
    else Ok(Dense(e.query(q)))
  }
}

=== FILE: memory_kb.dfy ===
/** The in-memory knowledge base (`MemoryKBHandler`): four parallel lists of
    documents, embeddings, metadata and ids. The handler is a mutable object;
    here each operation maps the store before the call to the store after it,
    together with whether the call raised. */
module MemoryKB {
  import opened Common
  import opened Embedding
  import Ranking

  datatype Store = Store(
    documents: seq<string>,
    embeddings: seq<Vector>,
    metadata: seq<Metadata>,
    ids: seq<string>)

  /** The four lists have the same length, one entry per passage. That the
      entries at one position describe the same passage is not a matter of
      lengths; for the embeddings it is `EmbeddedBy`. */
  predicate Aligned(s: Store)
  {
    |s.documents| == |s.embeddings| == |s.metadata| == |s.ids|
  }

  /** Every stored vector is the passage embedding, under `e`, of the document
      at the same position. */
  predicate EmbeddedBy(s: Store, e: Embedder)
  {
    && |s.embeddings| == |s.documents|
    && forall i :: 0 <= i < |s.documents| ==> s.embeddings[i] == e.passage(s.documents[i])
  }

  /** The store right after construction. */
  const EmptyStore: Store := Store([], [], [], [])

  /** The store after a mutating call, and whether that call raised. */
  datatype Applied = Applied(store: Store, outcome: Outcome)

  /** Python's built-in `hash` on strings, randomised per process. */
  type HashFn = string -> int

  // ---------------------------------------------------------------------------
  // add_documents
  // ---------------------------------------------------------------------------

  /** The id given to the `i`-th document of a batch when the caller supplies
      none: `f"doc_{i}_{hash(doc)}"`. */
  function DefaultId(hash: HashFn, i: nat, doc: string): string
  {
    "doc_" + IntToString(i) + "_" + IntToString(hash(doc))
  }

  function DefaultIds(hash: HashFn, documents: seq<string>): (r: seq<string>)
    ensures |r| == |documents|
    ensures forall i :: 0 <= i < |r| ==> r[i] == DefaultId(hash, i, documents[i])
  {
    seq(|documents|, i requires 0 <= i < |documents| => DefaultId(hash, i, documents[i]))
  }

  /** Generated ids of different batch positions differ, whatever the
      documents and whatever their hashes: the position is recoverable as the
      digits between `doc_` and the next `_`. */
  lemma {:induction false} DefaultIdInjective(hash: HashFn, i: nat, j: nat, a: string, b: string)
    requires DefaultId(hash, i, a) == DefaultId(hash, j, b)
    ensures i == j
  {
    var si, sj := IntToString(i), IntToString(j);
    var ha, hb := IntToString(hash(a)), IntToString(hash(b));
    var x := si + "_" + ha;
    var y := sj + "_" + hb;
    assert "doc_" + si + "_" + ha == "doc_" + x;
    assert "doc_" + sj + "_" + hb == "doc_" + y;
    assert x == ("doc_" + x)[4..];
    assert y == ("doc_" + y)[4..];
    SameFieldBeforeUnderscore(si, sj, ha, hb);
    assert si == NatToString(i) && sj == NatToString(j);
    NatToStringInjective(i, j);
  }

  /** In `f + "_" + rest`, a field `f` free of underscores is recovered as the
      text before the first underscore. */
  lemma SameFieldBeforeUnderscore(f: string, g: string, rf: string, rg: string)
    requires '_' !in f && '_' !in g
    requires f + "_" + rf == g + "_" + rg
    ensures f == g
  {
    var x := f + "_" + rf;
    var y := g + "_" + rg;
    FirstUnderscore(f, rf);
    FirstUnderscore(g, rg);
    assert f == x[..|f|];
    assert g == y[..|g|];
  }

  lemma FirstUnderscore(f: string, rest: string)
    requires '_' !in f
    ensures '_' in f + "_" + rest && FirstIndex(f + "_" + rest, '_') == |f|
  {
    var x := f + "_" + rest;
    assert x[|f|] == '_';
    assert x[..|f|] == f;
  }

  /** Ids generated for one batch are pairwise distinct. */
  lemma DefaultIdsDistinct(hash: HashFn, documents: seq<string>)
    ensures forall i, j :: 0 <= i < j < |documents| ==>
      DefaultIds(hash, documents)[i] != DefaultIds(hash, documents)[j]
  {
    var ids := DefaultIds(hash, documents);
    forall i, j | 0 <= i < j < |documents|
      ensures ids[i] != ids[j]
    {
      if ids[i] == ids[j] {
        DefaultIdInjective(hash, i, j, documents[i], documents[j]);
      }
    }
  }

  /** `add_documents(documents, metadata, ids)`; `None` stands for an omitted
      optional argument. An empty batch raises `ValueError`; a failure of the
      embedder propagates. Either way the store is left as it was, because
      embedding happens before any list is extended. Otherwise the batch is
      appended to the four lists. Nothing compares the lengths of the
      supplied metadata and ids with the batch. */
  function AddDocuments(
    s: Store, e: Embedder, hash: HashFn,
    documents: seq<string>, metadata: Option<seq<Metadata>>, ids: Option<seq<string>>): (r: Applied)
    ensures documents == [] ==>
      r == Applied(s, Raised(ValueError("Documents list cannot be empty")))
    ensures r.outcome.Raised? ==> r.store == s
    ensures r.outcome.Done? <==> documents != [] && !e.batchFails(documents)
    ensures r.outcome.Done? ==>
      && r.store.documents == s.documents + documents
      && r.store.embeddings == s.embeddings + PassageVectors(e, documents)
      && r.store.metadata == s.metadata +
           (if metadata.Some? then metadata.value else seq(|documents|, _ => map[]))
      && r.store.ids == s.ids +
           (if ids.Some? then ids.value else DefaultIds(hash, documents))
  {
    if documents == [] then
      Applied(s, Raised(ValueError("Documents list cannot be empty")))
    else
      var meta := if metadata.Some? then metadata.value else seq(|documents|, _ => map[]);
      var newIds := if ids.Some? then ids.value else DefaultIds(hash, documents);
      match EmbedTexts(e, documents)
      case Err(err) => Applied(s, Raised(err))
      case Ok(vectors) =>
        assert vectors == PassageVectors(e, documents);
        Applied(Store(s.documents + documents, s.embeddings + vectors,
                      s.metadata + meta, s.ids + newIds), Done)
  }

  /** The passage embeddings of a batch, in order. */
  function PassageVectors(e: Embedder, documents: seq<string>): (r: seq<Vector>)
    ensures |r| == |documents|
    ensures forall i :: 0 <= i < |r| ==> r[i] == e.passage(documents[i])
  {
    seq(|documents|, i requires 0 <= i < |documents| => e.passage(documents[i]))
  }

  /** Adding keeps every stored vector the embedding of its own document,
      whether the call raises or not and whatever the lengths of the supplied
      metadata and ids. */
  lemma AddKeepsEmbedded(
    s: Store, e: Embedder, hash: HashFn,
    documents: seq<string>, metadata: Option<seq<Metadata>>, ids: Option<seq<string>>)
    requires EmbeddedBy(s, e)
    ensures EmbeddedBy(AddDocuments(s, e, hash, documents, metadata, ids).store, e)
  {
    var r := AddDocuments(s, e, hash, documents, metadata, ids);
    if r.outcome.Done? {
      AppendKeepsEmbedded(s.documents, s.embeddings, documents, e);
    }
  }

  /** Appending a batch and its passage vectors to lists in which each vector
      embeds its document keeps them so. */
  lemma AppendKeepsEmbedded(docs: seq<string>, vectors: seq<Vector>, batch: seq<string>, e: Embedder)
    requires |vectors| == |docs|
    requires forall i :: 0 <= i < |docs| ==> vectors[i] == e.passage(docs[i])
    ensures var ds, vs := docs + batch, vectors + PassageVectors(e, batch);
      |vs| == |ds| && forall i :: 0 <= i < |ds| ==> vs[i] == e.passage(ds[i])
  {
    var ds, vs := docs + batch, vectors + PassageVectors(e, batch);
    forall i | 0 <= i < |ds|
      ensures vs[i] == e.passage(ds[i])
    {
      if i >= |docs| {
        assert vs[i] == PassageVectors(e, batch)[i - |docs|];
        assert ds[i] == batch[i - |docs|];
      }
    }
  }

  /** A successful add on an aligned store keeps it aligned exactly when the
      supplied metadata and ids (if any) match the batch in length. */
  lemma AddAlignedIff(
    s: Store, e: Embedder, hash: HashFn,
    documents: seq<string>, metadata: Option<seq<Metadata>>, ids: Option<seq<string>>)
    requires Aligned(s)
    requires AddDocuments(s, e, hash, documents, metadata, ids).outcome.Done?
    ensures Aligned(AddDocuments(s, e, hash, documents, metadata, ids).store) <==>
      && (metadata.Some? ==> |metadata.value| == |documents|)
      && (ids.Some? ==> |ids.value| == |documents|)
  {
    var meta := if metadata.Some? then metadata.value else seq(|documents|, _ => map[]);
    var newIds := if ids.Some? then ids.value else DefaultIds(hash, documents);
    assert metadata.None? ==> |meta| == |documents|;
    assert ids.None? ==> |newIds| == |documents|;
  }

  /** A successful add grows the count by exactly the batch size. */
  lemma AddGrowsCount(
    s: Store, e: Embedder, hash: HashFn,
    documents: seq<string>, metadata: Option<seq<Metadata>>, ids: Option<seq<string>>)
    requires AddDocuments(s, e, hash, documents, metadata, ids).outcome.Done?
    ensures DocumentCount(AddDocuments(s, e, hash, documents, metadata, ids).store)
         == DocumentCount(s) + |documents|
  {
  }

  // ---------------------------------------------------------------------------
  // retrieve
  // ---------------------------------------------------------------------------

  /** The result dictionary of `retrieve`, one list per key. */
  datatype Retrieval = Retrieval(
    ids: seq<string>,
    documents: seq<string>,
    metadatas: seq<Metadata>,
    distances: seq<real>)

  const NoResults: Retrieval := Retrieval([], [], [], [])

  /** The similarity of the query vector to every stored vector, in stored
      order (`cosine_similarity(...)[0]`); a helper of `Retrieve`. */
  function Scores(s: Store, sim: Similarity, qv: Vector): (r: seq<real>)
    ensures |r| == |s.embeddings|
    ensures forall i :: 0 <= i < |r| ==> r[i] == sim(qv, s.embeddings[i])
  {
    seq(|s.embeddings|, i requires 0 <= i < |s.embeddings| => sim(qv, s.embeddings[i]))
  }

  /** Gathers the rows at positions `picks`, or `IndexError` when one of the
      positions is past the end of the ids, documents or metadata list. */
  function Gather(s: Store, scores: seq<real>, picks: seq<nat>): (r: Result<Retrieval>)
    requires Ranking.InRange(picks, |scores|)
    ensures r.Ok? <==> forall j :: 0 <= j < |picks| ==>
      picks[j] < |s.ids| && picks[j] < |s.documents| && picks[j] < |s.metadata|
    ensures r.Ok? ==>
      && |r.value.ids| == |r.value.documents| == |r.value.metadatas| == |r.value.distances| == |picks|
      && forall j :: 0 <= j < |picks| ==>
           && r.value.ids[j] == s.ids[picks[j]]
           && r.value.documents[j] == s.documents[picks[j]]
           && r.value.metadatas[j] == s.metadata[picks[j]]
           && r.value.distances[j] == 1.0 - scores[picks[j]]
  {
    if (exists j :: 0 <= j < |picks| &&
          (picks[j] >= |s.ids| || picks[j] >= |s.documents| || picks[j] >= |s.metadata|))
    then Err(IndexError)
    else
      Ok(Retrieval(
        seq(|picks|, j requires 0 <= j < |picks| => s.ids[picks[j]]),
        seq(|picks|, j requires 0 <= j < |picks| => s.documents[picks[j]]),
        seq(|picks|, j requires 0 <= j < |picks| => s.metadata[picks[j]]),
        seq(|picks|, j requires 0 <= j < |picks| => 1.0 - scores[picks[j]])))
  }

  /** `retrieve(query, top_k)`. */
  function Retrieve(s: Store, e: Embedder, sim: Similarity, query: string, topK: int): (r: Result<Retrieval>)
    ensures IsBlank(query) <==> r == Err(ValueError("Query cannot be empty"))
    ensures !IsBlank(query) && s.documents == [] ==> r == Ok(NoResults)
    ensures !IsBlank(query) && s.documents != [] && e.queryFails(query) ==> r == Err(BackendError)
  {
    if IsBlank(query) then Err(ValueError("Query cannot be empty"))
    else if s.documents == [] then Ok(NoResults)
    else
      match EmbedQuery(e, query)
      case Err(err) => Err(err)
      case Ok(EmptySentinel) => Err(BackendError)
      case Ok(Dense(qv)) =>
        if s.embeddings == [] then Ok(NoResults)
        else
          var scores := Scores(s, sim, qv);
          Gather(s, scores, Ranking.TopK(scores, topK))
  }

  /** The positions `retrieve` reports on, best first. */
  function Picks(s: Store, e: Embedder, sim: Similarity, query: string, topK: int): seq<nat>
  {
    Ranking.TopK(Scores(s, sim, e.query(query)), topK)
  }

  /** On an aligned, non-empty store with a healthy query embedding, retrieval
      succeeds with `min(top_k, N)` rows when `top_k > 0`, the last `-top_k`
      ranks dropped when `top_k < 0`; row `j` of every list describes the same
      stored passage, and the distance is one minus its similarity. */
  lemma RetrieveRows(s: Store, e: Embedder, sim: Similarity, query: string, topK: int)
    requires Aligned(s) && s.documents != []
    requires !IsBlank(query) && !e.queryFails(query)
    ensures var r := Retrieve(s, e, sim, query, topK);
      var picks := Picks(s, e, sim, query, topK);
      && r.Ok?
      && |r.value.ids| == |r.value.documents| == |r.value.metadatas| == |r.value.distances| == |picks|
      && |picks| == Ranking.SliceEnd(|s.documents|, topK)
      && (topK > 0 ==> |picks| == if topK < |s.documents| then topK else |s.documents|)
      && Ranking.Distinct(picks)
      && forall j :: 0 <= j < |picks| ==>
           && picks[j] < |s.documents|
           && r.value.ids[j] == s.ids[picks[j]]
           && r.value.documents[j] == s.documents[picks[j]]
           && r.value.metadatas[j] == s.metadata[picks[j]]
           && r.value.distances[j] == 1.0 - sim(e.query(query), s.embeddings[picks[j]])
  {
  }

  /** A successful retrieval over stored vectors is the gather of the ranked
      positions, whether or not the four lists are aligned. */
  lemma RetrieveGathers(s: Store, e: Embedder, sim: Similarity, query: string, topK: int)
    requires Retrieve(s, e, sim, query, topK).Ok?
    requires s.documents != [] && s.embeddings != []
    ensures !IsBlank(query) && !e.queryFails(query)
    ensures Ranking.InRange(Picks(s, e, sim, query, topK), |s.embeddings|)
    ensures Retrieve(s, e, sim, query, topK)
         == Gather(s, Scores(s, sim, e.query(query)), Picks(s, e, sim, query, topK))
  {
  }

  /** Distances come out in non-decreasing order (similarity non-increasing)
      in every successful retrieval, on aligned and misaligned stores alike. */
  lemma RetrieveOrdered(s: Store, e: Embedder, sim: Similarity, query: string, topK: int)
    requires Retrieve(s, e, sim, query, topK).Ok?
    ensures var d := Retrieve(s, e, sim, query, topK).value.distances;
      forall i, j :: 0 <= i < j < |d| ==> d[i] <= d[j]
  {
    if s.documents != [] && s.embeddings != [] {
      RetrieveGathers(s, e, sim, query, topK);
      var picks := Picks(s, e, sim, query, topK);
      var scores := Scores(s, sim, e.query(query));
      var d := Retrieve(s, e, sim, query, topK).value.distances;
      forall i, j | 0 <= i < j < |d|
        ensures d[i] <= d[j]
      {
        assert scores[picks[i]] >= scores[picks[j]];
      }
    }
  }

  /** No stored vector left out of a successful retrieval is more similar to
      the query than one in it. */
  lemma RetrieveIsBest(s: Store, e: Embedder, sim: Similarity, query: string, topK: int, j: nat, m: nat)
    requires Retrieve(s, e, sim, query, topK).Ok? && s.documents != []
    requires j < |Picks(s, e, sim, query, topK)|
    requires m < |s.embeddings| && m !in Picks(s, e, sim, query, topK)
    ensures j < |Retrieve(s, e, sim, query, topK).value.distances|
    ensures Retrieve(s, e, sim, query, topK).value.distances[j]
         <= 1.0 - sim(e.query(query), s.embeddings[m])
  {
    RetrieveGathers(s, e, sim, query, topK);
    Ranking.TopKIsBest(Scores(s, sim, e.query(query)), topK, j, m);
  }

  /** When every stored vector is its document's embedding, the reported
      distance of each row of a successful retrieval is that of the row's own
      text, and no stored text left out of the result is closer to the query
      than a returned one. The ids and metadata lists may be misaligned. */
  lemma RetrieveRanksTexts(s: Store, e: Embedder, sim: Similarity, query: string, topK: int)
    requires EmbeddedBy(s, e) && s.documents != []
    requires Retrieve(s, e, sim, query, topK).Ok?
    ensures var r := Retrieve(s, e, sim, query, topK).value;
      var qv := e.query(query);
      && (forall j :: 0 <= j < |r.documents| ==>
            r.distances[j] == 1.0 - sim(qv, e.passage(r.documents[j])))
      && forall j, m :: (0 <= j < |r.documents| && 0 <= m < |s.documents|
           && m !in Picks(s, e, sim, query, topK)) ==>
             r.distances[j] <= 1.0 - sim(qv, e.passage(s.documents[m]))
  {
    RetrieveGathers(s, e, sim, query, topK);
    var r := Retrieve(s, e, sim, query, topK).value;
    var picks := Picks(s, e, sim, query, topK);
    var qv := e.query(query);
    forall j, m | 0 <= j < |r.documents| && 0 <= m < |s.documents| && m !in picks
      ensures r.distances[j] <= 1.0 - sim(qv, e.passage(s.documents[m]))
    {
      RetrieveIsBest(s, e, sim, query, topK, j, m);
    }
  }

  /** When every stored vector embeds its document, the selected positions
      hold the texts most similar to the query: none left out scores higher. */
  lemma PicksAreBestTexts(s: Store, e: Embedder, sim: Similarity, query: string, topK: int)
    requires EmbeddedBy(s, e)
    ensures var picks := Picks(s, e, sim, query, topK);
      forall j, m :: (0 <= j < |picks| && 0 <= m < |s.documents| && m !in picks) ==>
        picks[j] < |s.documents| &&
        sim(e.query(query), e.passage(s.documents[picks[j]])) >= sim(e.query(query), e.passage(s.documents[m]))
  {
    var picks := Picks(s, e, sim, query, topK);
    var scores := Scores(s, sim, e.query(query));
    forall j, m | 0 <= j < |picks| && 0 <= m < |s.documents| && m !in picks
      ensures picks[j] < |s.documents|
      ensures sim(e.query(query), e.passage(s.documents[picks[j]])) >= sim(e.query(query), e.passage(s.documents[m]))
    {
      Ranking.TopKIsBest(scores, topK, j, m);
    }
  }

  // ---------------------------------------------------------------------------
  // delete_document, clear_collection, get_document_count, get_all_documents
  // ---------------------------------------------------------------------------

  function RemoveAt<T>(xs: seq<T>, i: nat): (r: seq<T>)
    requires i < |xs|
    ensures |r| == |xs| - 1
    ensures forall k :: 0 <= k < i ==> r[k] == xs[k]
    ensures forall k :: i <= k < |r| ==> r[k] == xs[k + 1]
  {
    xs[..i] + xs[i + 1..]
  }

  /** `delete_document(doc_id)`. An absent id leaves the store unchanged (the
      source only logs a warning). A present id is looked up with
      `ids.index`, and that position is popped from ids, documents, embeddings
      and metadata in this order; on a misaligned store a later pop can raise
      `IndexError` after the earlier ones have already happened. */
  function DeleteDocument(s: Store, docId: string): (r: Applied)
    ensures docId !in s.ids ==> r == Applied(s, Done)
    ensures Aligned(s) && docId in s.ids ==>
      var idx := FirstIndex(s.ids, docId);
      && r.outcome == Done
      && Aligned(r.store)
      && r.store == Store(RemoveAt(s.documents, idx), RemoveAt(s.embeddings, idx),
                          RemoveAt(s.metadata, idx), RemoveAt(s.ids, idx))
  {
    if docId !in s.ids then Applied(s, Done)
    else
      var idx := FirstIndex(s.ids, docId);
      var s1 := s.(ids := RemoveAt(s.ids, idx));
      if idx >= |s.documents| then Applied(s1, Raised(IndexError))
      else
        var s2 := s1.(documents := RemoveAt(s.documents, idx));
        if idx >= |s.embeddings| then Applied(s2, Raised(IndexError))
        else
          var s3 := s2.(embeddings := RemoveAt(s.embeddings, idx));
          if idx >= |s.metadata| then Applied(s3, Raised(IndexError))
          else Applied(s3.(metadata := RemoveAt(s.metadata, idx)), Done)
  }

  /** Deleting a present id removes exactly one passage, the first one
      carrying that id. */
  lemma DeleteRemovesFirstMatch(s: Store, docId: string)
    requires Aligned(s) && docId in s.ids
    ensures var idx := FirstIndex(s.ids, docId);
      && docId !in s.ids[..idx]
      && DocumentCount(DeleteDocument(s, docId).store) == DocumentCount(s) - 1
      && DeleteDocument(s, docId).store.ids == s.ids[..idx] + s.ids[idx + 1..]
  {
  }

  /** How many passages carry id `x`. */
  function Occurrences(xs: seq<string>, x: string): nat
  {
    if xs == [] then 0 else (if xs[0] == x then 1 else 0) + Occurrences(xs[1..], x)
  }

  lemma {:induction false} OccurrencesSplit(xs: seq<string>, i: nat, x: string)
    requires i < |xs|
    ensures Occurrences(xs, x)
         == Occurrences(xs[..i], x) + (if xs[i] == x then 1 else 0) + Occurrences(xs[i + 1..], x)
  {
    if i > 0 {
      assert xs[1..][..i - 1] == xs[..i][1..];
      assert xs[1..][i - 1 + 1..] == xs[i + 1..];
      OccurrencesSplit(xs[1..], i - 1, x);
    } else {
      assert xs[1..] == xs[i + 1..];
    }
  }

  lemma {:induction false} OccurrencesZero(xs: seq<string>, x: string)
    requires Occurrences(xs, x) == 0
    ensures x !in xs
  {
    if xs != [] {
      OccurrencesZero(xs[1..], x);
      assert xs == [xs[0]] + xs[1..];
    }
  }

  /** Whatever the alignment, deletion pops the ids list first, at the first
      match. */
  lemma DeletePopsId(s: Store, docId: string)
    requires docId in s.ids
    ensures var idx := FirstIndex(s.ids, docId);
      DeleteDocument(s, docId).store.ids == s.ids[..idx] + s.ids[idx + 1..]
  {
    var idx := FirstIndex(s.ids, docId);
    assert RemoveAt(s.ids, idx) == s.ids[..idx] + s.ids[idx + 1..];
  }

  /** Deleting an id that occurs at most once twice is the same as deleting
      it once, on any store: the second call finds no match. */
  lemma DeleteIdempotentWhenUnique(s: Store, docId: string)
    requires Occurrences(s.ids, docId) <= 1
    ensures var once := DeleteDocument(s, docId).store;
      DeleteDocument(once, docId) == Applied(once, Done)
  {
    if docId in s.ids {
      var idx := FirstIndex(s.ids, docId);
      OccurrencesSplit(s.ids, idx, docId);
      var once := DeleteDocument(s, docId).store;
      assert Occurrences(s.ids[..idx], docId) == 0;
      assert Occurrences(s.ids[idx + 1..], docId) == 0;
      OccurrencesZero(s.ids[..idx], docId);
      OccurrencesZero(s.ids[idx + 1..], docId);
      DeletePopsId(s, docId);
      assert docId !in once.ids;
    }
  }

  lemma {:induction false} OccurrencesAbsent(xs: seq<string>, x: string)
    requires x !in xs
    ensures Occurrences(xs, x) == 0
  {
    if xs != [] {
      assert xs[0] != x;
      OccurrencesAbsent(xs[1..], x);
    }
  }

  /** Deletion is not idempotent once an id is duplicated: on an aligned
      store, a second delete of an id stored at least twice finds it again and
      removes a second passage. */
  lemma DeleteTwiceOnDuplicate(s: Store, docId: string)
    requires Aligned(s) && Occurrences(s.ids, docId) >= 2
    ensures var once := DeleteDocument(s, docId).store;
      && docId in once.ids
      && DocumentCount(DeleteDocument(once, docId).store) == DocumentCount(s) - 2
  {
    if docId !in s.ids {
      OccurrencesAbsent(s.ids, docId);
    } else {
      var idx := FirstIndex(s.ids, docId);
      OccurrencesSplit(s.ids, idx, docId);
      OccurrencesAbsent(s.ids[..idx], docId);
      if docId !in s.ids[idx + 1..] {
        OccurrencesAbsent(s.ids[idx + 1..], docId);
      }
      var once := DeleteDocument(s, docId).store;
      DeletePopsId(s, docId);
      assert docId in once.ids;
      DeleteRemovesFirstMatch(s, docId);
      DeleteRemovesFirstMatch(once, docId);
    }
  }

  /** Duplicated ids do arise: adding the same one-document batch twice
      without ids stores two passages with the same generated id. */
  lemma RepeatedAddDuplicatesIds(e: Embedder, hash: HashFn, doc: string)
    requires !e.batchFails([doc])
    ensures var once := AddDocuments(EmptyStore, e, hash, [doc], None, None).store;
      var twice := AddDocuments(once, e, hash, [doc], None, None).store;
      && Aligned(twice)
      && twice.ids == [DefaultId(hash, 0, doc), DefaultId(hash, 0, doc)]
  {
  }

  /** `clear_collection()`: all four lists emptied. */
  function ClearCollection(s: Store): (r: Applied)
    ensures r.outcome == Done && Aligned(r.store) && DocumentCount(r.store) == 0
    ensures r.store.ids == [] && r.store.embeddings == [] && r.store.metadata == []
  {
    Applied(EmptyStore, Done)
  }

  /** Deleting keeps every stored vector the embedding of its own document,
      even when a misaligned store makes the call raise part-way: documents
      and embeddings are popped together or not at all. */
  lemma DeleteKeepsEmbedded(s: Store, e: Embedder, docId: string)
    requires EmbeddedBy(s, e)
    ensures EmbeddedBy(DeleteDocument(s, docId).store, e)
  {
    if docId in s.ids {
      var idx := FirstIndex(s.ids, docId);
      var r := DeleteDocument(s, docId).store;
      if idx < |s.documents| {
        forall i | 0 <= i < |r.documents|
          ensures r.embeddings[i] == e.passage(r.documents[i])
        {
          if i >= idx {
            assert r.embeddings[i] == s.embeddings[i + 1];
            assert r.documents[i] == s.documents[i + 1];
          }
        }
      }
    }
  }

  /** Clearing twice is the same as clearing once. */
  lemma ClearIdempotent(s: Store)
    ensures ClearCollection(ClearCollection(s).store) == ClearCollection(s)
  {
  }

  /** `get_document_count()`: the length of the documents list. */
  function DocumentCount(s: Store): (r: nat)
    ensures Aligned(s) ==> r == |s.ids| == |s.embeddings| == |s.metadata|
    ensures r == 0 <==> s.documents == []
  {
    |s.documents|
  }

  /** The result dictionary of `get_all_documents`. */
  datatype Snapshot = Snapshot(ids: seq<string>, documents: seq<string>, metadatas: seq<Metadata>)

  /** `get_all_documents()`: copies of the ids, documents and metadata lists,
      with the store's current contents. The copies are shallow in Python, so
      the metadata dicts are shared with the store; values here are immutable
      and that sharing is not modelled. */
  function AllDocuments(s: Store): (r: Snapshot)
    ensures r.ids == s.ids && r.documents == s.documents && r.metadatas == s.metadata
  {
    Snapshot(s.ids, s.documents, s.metadata)
  }

  /** After a successful add the snapshot lists the earlier passages first,
      unchanged, then the new batch in order. */
  lemma SnapshotAfterAdd(
    s: Store, e: Embedder, hash: HashFn,
    documents: seq<string>, metadata: Option<seq<Metadata>>, ids: Option<seq<string>>)
    requires AddDocuments(s, e, hash, documents, metadata, ids).outcome.Done?
    ensures var before := AllDocuments(s);
      var after := AllDocuments(AddDocuments(s, e, hash, documents, metadata, ids).store);
      && after.documents == before.documents + documents
      && after.ids[..|before.ids|] == before.ids
      && after.metadatas[..|before.metadatas|] == before.metadatas
  {
  }

  // ---------------------------------------------------------------------------
  // The alignment invariant over a session
  // ---------------------------------------------------------------------------

  /** A mutating call on the handler. */
  datatype Op =
    | AddOp(documents: seq<string>, metadata: Option<seq<Metadata>>, ids: Option<seq<string>>)
    | DeleteOp(docId: string)
    | ClearOp

  /** An add whose optional arguments, when given, match the batch in length. */
  predicate WellSized(op: Op)
  {
    op.AddOp? ==>
      && (op.metadata.Some? ==> |op.metadata.value| == |op.documents|)
      && (op.ids.Some? ==> |op.ids.value| == |op.documents|)
  }

  /** The store after one call, whether or not the call raised. */
  function Apply(s: Store, e: Embedder, hash: HashFn, op: Op): Store
  {
    match op
    case AddOp(documents, metadata, ids) => AddDocuments(s, e, hash, documents, metadata, ids).store
    case DeleteOp(docId) => DeleteDocument(s, docId).store
    case ClearOp => ClearCollection(s).store
  }

  /** The store after a sequence of calls, in order. */
  function Run(s: Store, e: Embedder, hash: HashFn, ops: seq<Op>): Store
    decreases |ops|
  {
    if ops == [] then s else Run(Apply(s, e, hash, ops[0]), e, hash, ops[1..])
  }

  /** Every stored vector stays the embedding of its own document through any
      sequence of calls with one embedder, ill-sized adds included. */
  lemma {:induction false} RunKeepsEmbedded(s: Store, e: Embedder, hash: HashFn, ops: seq<Op>)
    requires EmbeddedBy(s, e)
    ensures EmbeddedBy(Run(s, e, hash, ops), e)
    decreases |ops|
  {
    if ops != [] {
      var op := ops[0];
      if op.AddOp? {
        AddKeepsEmbedded(s, e, hash, op.documents, op.metadata, op.ids);
      } else if op.DeleteOp? {
        DeleteKeepsEmbedded(s, e, op.docId);
      }
      RunKeepsEmbedded(Apply(s, e, hash, ops[0]), e, hash, ops[1..]);
    }
  }

  /** The four lists stay aligned through any sequence of adds, deletes and
      clears, raising or not, as long as every add is well sized; one
      successful ill-sized add on an aligned store breaks it (`AddAlignedIff`). */
  lemma {:induction false} RunKeepsAligned(s: Store, e: Embedder, hash: HashFn, ops: seq<Op>)
    requires Aligned(s)
    requires forall k :: 0 <= k < |ops| ==> WellSized(ops[k])
    ensures Aligned(Run(s, e, hash, ops))
    decreases |ops|
  {
    if ops != [] {
      var op := ops[0];
      if op.AddOp? && AddDocuments(s, e, hash, op.documents, op.metadata, op.ids).outcome.Done? {
        AddAlignedIff(s, e, hash, op.documents, op.metadata, op.ids);
      }
      assert forall k :: 0 <= k < |ops[1..]| ==> ops[1..][k] == ops[k + 1];
      RunKeepsAligned(Apply(s, e, hash, op), e, hash, ops[1..]);
    }
  }
}

=== FILE: rag_service.dfy ===
/** The RAG service: it turns retrieval results into a ranked context block,
    builds the system prompt and the message list sent to the chat model, and
    reports the knowledge base's status. Its knowledge base is the in-memory
    store. */
module Rag {
  import opened Common
  import opened Embedding
  import opened MemoryKB
  import DeepSeek

  /** The service's collaborators and its `top_k` setting. */
  datatype Service = Service(kb: Store, embedder: Embedder, sim: Similarity, hash: HashFn, topK: int)

  /** The opaque rendering of a ratio as a percentage, Python's `{x:.2%}`. */
  type PercentFormat = real -> string

  /** The heading placed before the retrieved passages. */
  const ContextHeader: string := "以下是相关的参考文档：\n"

  /** The system prompt used on its own when there is no context. */
  const BasePrompt: string :=
    "你是一个有帮助的 AI 助手。你的任务是根据用户的问题提供准确、有用的回答。\n\n"
    + "如果用户的问题与特定主题相关，你可以参考下面提供的参考文档。请根据这些文档提供答案，但也可以使用你的通用知识。\n\n"
    + "当使用参考文档时，请清楚地表明你是从哪些文档中获取信息的。\n\n"
    + "如果参考文档中没有相关信息，请使用你的通用知识回答。"

  /** The instruction appended after the context. */
  const ClosingPrompt: string := "请基于上述信息以及你的知识回答用户的问题。"

  // ---------------------------------------------------------------------------
  // _retrieve_context
  // ---------------------------------------------------------------------------

  /** `max(0, 1 - distance)`: relevance never shows as negative. */
  function Relevance(distance: real): (r: real)
    ensures r >= 0.0 && r >= 1.0 - distance
    ensures r == 0.0 || r == 1.0 - distance
  {
    if 1.0 - distance > 0.0 then 1.0 - distance else 0.0
  }

  /** One formatted passage: rank label, relevance, then the passage text. */
  function Block(percent: PercentFormat, rank: nat, doc: string, distance: real): string
  {
    "\n【文档 " + NatToString(rank) + "】（相关度: " + percent(Relevance(distance)) + "）\n" + doc + "\n"
  }

  /** The blocks of `enumerate(zip(documents, distances), 1)`, labelled from
      `first` on; `zip` stops at the shorter list. */
  function Blocks(percent: PercentFormat, docs: seq<string>, distances: seq<real>, first: nat): (r: seq<string>)
    ensures |r| == if |docs| < |distances| then |docs| else |distances|
    ensures forall j :: 0 <= j < |r| ==> r[j] == Block(percent, first + j, docs[j], distances[j])
  {
    if docs == [] || distances == [] then []
    else [Block(percent, first, docs[0], distances[0])]
         + Blocks(percent, docs[1..], distances[1..], first + 1)
  }

  /** `_retrieve_context(query)`: no context when the store is empty (the
      store is not even asked), when retrieval raises (the error is swallowed)
      or when it finds nothing; otherwise the heading followed by one block per
      retrieved passage, labelled 1, 2, ... in retrieval order. */
  function RetrieveContext(svc: Service, percent: PercentFormat, query: string): (r: string)
    ensures DocumentCount(svc.kb) == 0 ==> r == ""
    ensures Retrieve(svc.kb, svc.embedder, svc.sim, query, svc.topK).Err? ==> r == ""
    ensures r != "" ==>
      var res := Retrieve(svc.kb, svc.embedder, svc.sim, query, svc.topK).value;
      && res.documents != []
      && r == ContextHeader + Concat(Blocks(percent, res.documents, res.distances, 1))
    ensures DocumentCount(svc.kb) > 0 && Retrieve(svc.kb, svc.embedder, svc.sim, query, svc.topK).Ok? ==>
      var res := Retrieve(svc.kb, svc.embedder, svc.sim, query, svc.topK).value;
      r == (if res.documents == [] then ""
            else ContextHeader + Concat(Blocks(percent, res.documents, res.distances, 1)))
  {
    if DocumentCount(svc.kb) == 0 then ""
    else
      match Retrieve(svc.kb, svc.embedder, svc.sim, query, svc.topK)
      case Err(_) => ""
      case Ok(res) =>
        if res.documents == [] then ""
        else ContextHeader + Concat(Blocks(percent, res.documents, res.distances, 1))
  }

  /** A context is either empty or clearly non-blank: it starts with the
      heading, so the system prompt will always include it. */
  lemma ContextBlankOnlyIfEmpty(svc: Service, percent: PercentFormat, query: string)
    ensures IsBlank(RetrieveContext(svc, percent, query)) <==> RetrieveContext(svc, percent, query) == ""
  {
    var r := RetrieveContext(svc, percent, query);
    if r != "" {
      assert r[0] == ContextHeader[0];
    }
  }

  /** On an aligned, non-empty store whose vectors are the embeddings of its
      documents (which the service keeps, `ServiceStaysEmbedded`), with a
      usable query, a healthy query embedding and `top_k > 0`: the context
      has `min(top_k, N)` blocks, block `j` carrying the stored text `j` ranks
      best verbatim under label `j + 1`, scored by that text's own
      similarity to the query, and no stored text left out is more similar
      than one listed. */
  lemma ContextListsBestPassages(svc: Service, percent: PercentFormat, query: string)
    requires Aligned(svc.kb) && EmbeddedBy(svc.kb, svc.embedder)
    requires DocumentCount(svc.kb) > 0 && svc.topK > 0
    requires !IsBlank(query) && !svc.embedder.queryFails(query)
    ensures var picks := Picks(svc.kb, svc.embedder, svc.sim, query, svc.topK);
      var e, docs := svc.embedder, svc.kb.documents;
      && |picks| == (if svc.topK < |docs| then svc.topK else |docs|)
      && Ranking.InRange(picks, |docs|)
      && RetrieveContext(svc, percent, query) == ContextHeader + Concat(TextBlocks(svc, percent, query, picks))
      && forall j, m :: (0 <= j < |picks| && 0 <= m < |docs| && m !in picks) ==>
           svc.sim(e.query(query), e.passage(docs[picks[j]])) >= svc.sim(e.query(query), e.passage(docs[m]))
  {
    Ranking.TopKSize(Scores(svc.kb, svc.sim, svc.embedder.query(query)), svc.topK);
    ContextIsTextBlocks(svc, percent, query);
    PicksAreBestTexts(svc.kb, svc.embedder, svc.sim, query, svc.topK);
  }

  /** The blocks listing the stored texts at `picks`, labelled from 1, each
      with the distance of its own text from the query. */
  function TextBlocks(svc: Service, percent: PercentFormat, query: string, picks: seq<nat>): (r: seq<string>)
    requires Ranking.InRange(picks, |svc.kb.documents|)
    ensures |r| == |picks|
    ensures forall j :: 0 <= j < |picks| ==>
      r[j] == Block(percent, j + 1, svc.kb.documents[picks[j]],
                    1.0 - svc.sim(svc.embedder.query(query), svc.embedder.passage(svc.kb.documents[picks[j]])))
  {
    seq(|picks|, j requires 0 <= j < |picks| =>
      Block(percent, j + 1, svc.kb.documents[picks[j]],
            1.0 - svc.sim(svc.embedder.query(query), svc.embedder.passage(svc.kb.documents[picks[j]]))))
  }

  lemma ContextIsTextBlocks(svc: Service, percent: PercentFormat, query: string)
    requires Aligned(svc.kb) && EmbeddedBy(svc.kb, svc.embedder) && DocumentCount(svc.kb) > 0
    requires !IsBlank(query) && !svc.embedder.queryFails(query)
    ensures var picks := Picks(svc.kb, svc.embedder, svc.sim, query, svc.topK);
      && Ranking.InRange(picks, |svc.kb.documents|)
      && (picks != [] ==>
           RetrieveContext(svc, percent, query) == ContextHeader + Concat(TextBlocks(svc, percent, query, picks)))
  {
    RetrieveRows(svc.kb, svc.embedder, svc.sim, query, svc.topK);
    var res := Retrieve(svc.kb, svc.embedder, svc.sim, query, svc.topK).value;
    var picks := Picks(svc.kb, svc.embedder, svc.sim, query, svc.topK);
    if picks != [] {
      var blocks := Blocks(percent, res.documents, res.distances, 1);
      var texts := TextBlocks(svc, percent, query, picks);
      forall j | 0 <= j < |picks|
        ensures blocks[j] == texts[j]
      {
        assert svc.kb.embeddings[picks[j]] == svc.embedder.passage(svc.kb.documents[picks[j]]);
      }
      assert blocks == texts;
    }
  }

  // ---------------------------------------------------------------------------
  // _get_system_prompt and _build_enhanced_messages
  // ---------------------------------------------------------------------------

  /** `_get_system_prompt(context)`: the base prompt alone for a blank
      context; otherwise base prompt, blank line, context, blank line, closing
      instruction. */
  function SystemPrompt(context: string): (r: string)
    ensures IsBlank(context) ==> r == BasePrompt
    ensures !IsBlank(context) ==> r == BasePrompt + "\n\n" + context + "\n\n" + ClosingPrompt
  {
    if !IsBlank(context) then BasePrompt + "\n\n" + context + "\n\n" + ClosingPrompt
    else BasePrompt
  }

  /** Reads the context back out of a system prompt. */
  function ContextOf(prompt: string): string
  {
    if |prompt| >= |BasePrompt| + 4 + |ClosingPrompt|
    then prompt[|BasePrompt| + 2 .. |prompt| - |ClosingPrompt| - 2]
    else ""
  }

  /** The base prompt always leads the system prompt, and the context can be
      read back from it verbatim (a blank context reads back as empty). */
  lemma SystemPromptRoundTrip(context: string)
    ensures |SystemPrompt(context)| >= |BasePrompt|
    ensures SystemPrompt(context)[..|BasePrompt|] == BasePrompt
    ensures ContextOf(SystemPrompt(context)) == if IsBlank(context) then "" else context
  {
    var p := SystemPrompt(context);
    if !IsBlank(context) {
      assert p == BasePrompt + ("\n\n" + context + "\n\n" + ClosingPrompt);
      assert p[|BasePrompt| + 2 .. |p| - |ClosingPrompt| - 2] == context;
    } else {
      assert |p| < |BasePrompt| + 4 + |ClosingPrompt|;
    }
  }

  /** `_build_enhanced_messages(user_query, chat_history, context)`. */
  function BuildEnhancedMessages(userQuery: string, history: seq<Message>, context: string): (r: seq<Message>)
    ensures |r| == |history| + 2
    ensures r[0] == Msg("system", SystemPrompt(context))
    ensures r[1..|history| + 1] == history
    ensures r[|history| + 1] == Msg("user", userQuery)
  {
    [Msg("system", SystemPrompt(context))] + history + [Msg("user", userQuery)]
  }

  /** The token estimate of the assembled messages splits into the system
      prompt, the history and the query, plus eight header tokens for the two
      added messages. */
  lemma EnhancedMessagesTokens(userQuery: string, history: seq<Message>, context: string)
    ensures DeepSeek.MessagesTokens(BuildEnhancedMessages(userQuery, history, context))
         == DeepSeek.CountTokensEstimate(SystemPrompt(context))
            + DeepSeek.MessagesTokens(history)
            + DeepSeek.CountTokensEstimate(userQuery) + 8
  {
    var sys := Msg("system", SystemPrompt(context));
    var user := Msg("user", userQuery);
    assert BuildEnhancedMessages(userQuery, history, context) == [sys] + history + [user];
    DeepSeek.MessagesTokensAppend([sys] + history, [user]);
    DeepSeek.MessagesTokensAppend([sys], history);
    DeepSeek.SingleMessageTokens(sys);
    DeepSeek.SingleMessageTokens(user);
  }

  // ---------------------------------------------------------------------------
  // generate_response_with_rag
  // ---------------------------------------------------------------------------

  /** The messages sent to the chat model and the fragments yielded back. */
  datatype Turn = Turn(messages: seq<Message>, fragments: seq<string>)

  /** `generate_response_with_rag(user_query, chat_history, use_rag)`; `chat`
      stands for the chat model, giving the delta stream for a message list. */
  function GenerateResponseWithRag(
    svc: Service, percent: PercentFormat, chat: seq<Message> -> DeepSeek.Stream,
    userQuery: string, history: seq<Message>, useRag: bool): (r: Turn)
    ensures !useRag ==> r.messages == BuildEnhancedMessages(userQuery, history, "")
    ensures useRag ==> r.messages == BuildEnhancedMessages(userQuery, history, RetrieveContext(svc, percent, userQuery))
    ensures r.fragments == DeepSeek.FilterDeltas(chat(r.messages))
  {
    var context := if useRag then RetrieveContext(svc, percent, userQuery) else "";
    var messages := BuildEnhancedMessages(userQuery, history, context);
    Turn(messages, DeepSeek.FilterDeltas(chat(messages)))
  }

  /** With retrieval off the knowledge base plays no part: two services that
      differ only in their store and embedder produce the same turn, and the
      system message is the base prompt. */
  lemma NoRagIgnoresStore(
    svc: Service, other: Service, percent: PercentFormat, chat: seq<Message> -> DeepSeek.Stream,
    userQuery: string, history: seq<Message>)
    ensures GenerateResponseWithRag(svc, percent, chat, userQuery, history, false)
         == GenerateResponseWithRag(other, percent, chat, userQuery, history, false)
    ensures GenerateResponseWithRag(svc, percent, chat, userQuery, history, false).messages[0]
         == Msg("system", BasePrompt)
  {
  }

  // ---------------------------------------------------------------------------
  // Administration
  // ---------------------------------------------------------------------------

  /** The result dictionary of `get_knowledge_base_info`. */
  datatype Info = Info(documentCount: int, topK: int, status: string)

  /** `get_knowledge_base_info()` given what the handler's
      `get_document_count` returned (or that it raised). */
  function InfoFromCount(count: Result<nat>, topK: int): (r: Info)
    ensures r.topK == topK
    ensures count.Err? <==> r.status == "error"
    ensures count.Err? ==> r.documentCount == 0
    ensures count.Ok? ==> r.documentCount == count.value
    ensures r.status == "ready" <==> count.Ok? && count.value > 0
    ensures r.status == "empty" <==> count.Ok? && count.value == 0
  {
    match count
    case Err(_) => Info(0, topK, "error")
    case Ok(n) => Info(n, topK, if n > 0 then "ready" else "empty")
  }

  /** With the in-memory store counting cannot fail. */
  function KnowledgeBaseInfo(svc: Service): (r: Info)
    ensures r.documentCount == DocumentCount(svc.kb) && r.topK == svc.topK
    ensures r.status == (if DocumentCount(svc.kb) > 0 then "ready" else "empty")
  {
    InfoFromCount(Ok(DocumentCount(svc.kb)), svc.topK)
  }

  /** `add_documents(documents, metadata)`: forwards to the store without ids,
      so generated ids are used. */
  function AddDocuments(svc: Service, documents: seq<string>, metadata: Option<seq<Metadata>>): (r: (Service, Outcome))
    ensures r.1.Raised? <==> documents == [] || svc.embedder.batchFails(documents)
    ensures r.1.Raised? ==> r.0 == svc
    ensures r.0 == svc.(kb := r.0.kb)
    ensures r.1 == Done ==> DocumentCount(r.0.kb) == DocumentCount(svc.kb) + |documents|
    ensures r.1 == Done ==> r.0.kb == Store(
      svc.kb.documents + documents,
      svc.kb.embeddings + PassageVectors(svc.embedder, documents),
      svc.kb.metadata + (if metadata.Some? then metadata.value else seq(|documents|, _ => map[])),
      svc.kb.ids + DefaultIds(svc.hash, documents))
  {
    var a := MemoryKB.AddDocuments(svc.kb, svc.embedder, svc.hash, documents, metadata, None);
    (svc.(kb := a.store), a.outcome)
  }

  /** A successful add leaves the knowledge base ready, reporting the earlier
      count plus the batch. */
  lemma AddMakesReady(svc: Service, documents: seq<string>, metadata: Option<seq<Metadata>>)
    requires AddDocuments(svc, documents, metadata).1 == Done
    ensures KnowledgeBaseInfo(AddDocuments(svc, documents, metadata).0)
         == Info(DocumentCount(svc.kb) + |documents|, svc.topK, "ready")
  {
  }

  /** `clear_knowledge_base()`: the status then reads empty. */
  function ClearKnowledgeBase(svc: Service): (r: Service)
    ensures KnowledgeBaseInfo(r).status == "empty" && KnowledgeBaseInfo(r).documentCount == 0
    ensures r.topK == svc.topK
    ensures r == svc.(kb := EmptyStore)
  {
    svc.(kb := ClearCollection(svc.kb).store)
  }

  /** The service starts with an empty store and changes it only by adding
      and clearing, both of which keep every stored vector the embedding of
      its own document under the service's embedder. */
  lemma ServiceStaysEmbedded(svc: Service, documents: seq<string>, metadata: Option<seq<Metadata>>)
    requires EmbeddedBy(svc.kb, svc.embedder)
    ensures var added := AddDocuments(svc, documents, metadata).0;
      EmbeddedBy(added.kb, added.embedder)
    ensures var cleared := ClearKnowledgeBase(svc);
      EmbeddedBy(cleared.kb, cleared.embedder)
  {
    AddKeepsEmbedded(svc.kb, svc.embedder, svc.hash, documents, metadata, None);
  }
}

=== FILE: ranking.dfy ===
/** Top-k selection over similarity scores: `np.argsort(-similarities)[:top_k]`.
    numpy's default sort is not stable, so the order among equal scores is left
    open by the source; the model fixes it to index order (earlier-inserted
    passage first), which is one of the orders numpy may produce. */
module Ranking {

  /** Every entry of `xs` is a position into a list of length `n`. */
  predicate InRange(xs: seq<nat>, n: nat)
  {
    forall i :: 0 <= i < |xs| ==> xs[i] < n
  }

  /** Positions listed by non-increasing score. */
  predicate SortedDesc(scores: seq<real>, xs: seq<nat>)
    requires InRange(xs, |scores|)
  {
    forall i, j :: 0 <= i < j < |xs| ==> scores[xs[i]] >= scores[xs[j]]
  }

  /** Among equal scores, positions appear in increasing order. */
  predicate TiesInIndexOrder(scores: seq<real>, xs: seq<nat>)
    requires InRange(xs, |scores|)
  {
    forall i, j :: 0 <= i < j < |xs| && scores[xs[i]] == scores[xs[j]] ==> xs[i] < xs[j]
  }

  /** No position is listed twice. */
  predicate Distinct(xs: seq<nat>)
  {
    forall i, j :: 0 <= i < j < |xs| ==> xs[i] != xs[j]
  }

  /** The positions `0, 1, ..., n - 1` in order. */
  function Indices(n: nat): (r: seq<nat>)
    ensures |r| == n && InRange(r, n)
    ensures forall i :: 0 <= i < n ==> r[i] == i
  {
    seq(n, i requires 0 <= i < n => i)
  }

  /** Where position `x` goes in the ranked list `ys`: after every position
      with a strictly higher score, ahead of the first one it reaches. */
  function InsertPos(scores: seq<real>, x: nat, ys: seq<nat>): (p: nat)
    requires x < |scores| && InRange(ys, |scores|)
    ensures p <= |ys|
    ensures forall i :: 0 <= i < p ==> scores[ys[i]] > scores[x]
    ensures p < |ys| ==> scores[x] >= scores[ys[p]]
  {
    if ys == [] || scores[x] >= scores[ys[0]] then 0
    else 1 + InsertPos(scores, x, ys[1..])
  }

  function Insert(scores: seq<real>, x: nat, ys: seq<nat>): (r: seq<nat>)
    requires x < |scores| && InRange(ys, |scores|)
    ensures InRange(r, |scores|) && |r| == |ys| + 1
    ensures forall v :: v in r <==> v == x || v in ys
  {
    var p := InsertPos(scores, x, ys);
    assert ys == ys[..p] + ys[p..];
    ys[..p] + [x] + ys[p..]
  }

  /** Inserting a position smaller than all ranked ones keeps the ranking
      sorted, ties in index order, and free of repeats. */
  lemma InsertKeepsRanking(scores: seq<real>, x: nat, ys: seq<nat>)
    requires x < |scores| && InRange(ys, |scores|)
    requires SortedDesc(scores, ys) && TiesInIndexOrder(scores, ys) && Distinct(ys)
    requires forall k :: 0 <= k < |ys| ==> x < ys[k]
    ensures SortedDesc(scores, Insert(scores, x, ys))
    ensures TiesInIndexOrder(scores, Insert(scores, x, ys))
    ensures Distinct(Insert(scores, x, ys))
  {
    var p := InsertPos(scores, x, ys);
    var r := Insert(scores, x, ys);
    assert forall k :: 0 <= k < p ==> r[k] == ys[k];
    assert r[p] == x;
    assert forall k :: p < k < |r| ==> r[k] == ys[k - 1];
    forall i, j | 0 <= i < j < |r|
      ensures scores[r[i]] >= scores[r[j]]
      ensures scores[r[i]] == scores[r[j]] ==> r[i] < r[j]
      ensures r[i] != r[j]
    {
      if j < p {
      } else if j == p {
      } else if i < p {
        if p < |ys| {
          assert scores[ys[i]] > scores[x] >= scores[ys[p]];
        }
      } else if i == p {
        assert scores[x] >= scores[ys[p]];
      } else {
        assert r[i] == ys[i - 1] && r[j] == ys[j - 1];
      }
    }
  }

  /** Stable insertion sort of the positions `xs` by descending score. */
  function Sort(scores: seq<real>, xs: seq<nat>): (r: seq<nat>)
    requires InRange(xs, |scores|)
    requires forall i, j :: 0 <= i < j < |xs| ==> xs[i] < xs[j]
    ensures InRange(r, |scores|) && |r| == |xs|
    ensures forall v :: v in r <==> v in xs
    ensures SortedDesc(scores, r) && TiesInIndexOrder(scores, r) && Distinct(r)
  {
    if xs == [] then []
    else
      var rest := Sort(scores, xs[1..]);
      HeadBelowRest(xs, rest);
      InsertKeepsRanking(scores, xs[0], rest);
      Insert(scores, xs[0], rest)
  }

  /** The first of an increasing list of positions is below every later one,
      wherever those later ones have been moved to. */
  lemma HeadBelowRest(xs: seq<nat>, rest: seq<nat>)
    requires xs != []
    requires forall i, j :: 0 <= i < j < |xs| ==> xs[i] < xs[j]
    requires forall v :: v in rest <==> v in xs[1..]
    ensures forall k :: 0 <= k < |rest| ==> xs[0] < rest[k]
  {
    forall k | 0 <= k < |rest|
      ensures xs[0] < rest[k]
    {
      assert rest[k] in xs[1..];
      var i :| 0 <= i < |xs| - 1 && xs[1..][i] == rest[k];
      assert xs[i + 1] == rest[k];
    }
  }

  /** `np.argsort(-scores)`: every position exactly once, best score first,
      ties in index order. */
  function Rank(scores: seq<real>): (r: seq<nat>)
    ensures InRange(r, |scores|) && |r| == |scores| && Distinct(r)
    ensures forall m :: 0 <= m < |scores| ==> m in r
    ensures SortedDesc(scores, r) && TiesInIndexOrder(scores, r)
  {
    var ix := Indices(|scores|);
    assert forall m :: 0 <= m < |scores| ==> m in ix by {
      forall m | 0 <= m < |scores| ensures m in ix {
        assert ix[m] == m;
      }
    }
    Sort(scores, ix)
  }

  /** The end of Python's slice `xs[:k]` on a list of length `n`: a
      non-negative `k` keeps the first `k` items (all of them when `k >= n`),
      a negative `k` drops the last `-k`. */
  function SliceEnd(n: nat, k: int): (e: nat)
    ensures e <= n
    ensures 0 <= k ==> e == (if k < n then k else n)
    ensures k < 0 ==> e == (if n + k > 0 then n + k else 0)
  {
    if k >= 0 then (if k < n then k else n)
    else if n + k > 0 then n + k else 0
  }

  /** `np.argsort(-scores)[:k]`. */
  function TopK(scores: seq<real>, k: int): (r: seq<nat>)
    ensures InRange(r, |scores|) && Distinct(r)
    ensures |r| == SliceEnd(|scores|, k)
    ensures SortedDesc(scores, r) && TiesInIndexOrder(scores, r)
  {
    Rank(scores)[..SliceEnd(|scores|, k)]
  }

  /** With `k > 0` the selection has `min(k, n)` entries. */
  lemma TopKSize(scores: seq<real>, k: int)
    requires k > 0
    ensures |TopK(scores, k)| == (if k < |scores| then k else |scores|)
  {
  }

  /** The selection really is the best: no position left out has a higher
      score than any position selected. */
  lemma TopKIsBest(scores: seq<real>, k: int, j: nat, m: nat)
    requires j < |TopK(scores, k)| && m < |scores| && m !in TopK(scores, k)
    ensures scores[TopK(scores, k)[j]] >= scores[m]
  {
    var all := Rank(scores);
    var e := SliceEnd(|scores|, k);
    assert all[..e] == TopK(scores, k);
    assert m in all;
    var p :| 0 <= p < |all| && all[p] == m;
    assert j < e <= p;
  }
}
